=== FILE: README.md ===
# Pulsar dome shutter controller — a Dafny model

This project models two parts of the rockit Pulsar dome. The first is the
firmware of its shutter microcontroller: the ATmega program in
`shutter-controller/main.c` and its interrupt-driven serial driver in
`shutter-controller/serial.c`. The second is the host-side table of command
results and status labels in `rockit/dome/pulsar/constants.py`. All of it is
written as pure functions over immutable state, and the properties are proved
about those functions.

Modules, following the program's structure:

- `Common`: bytes, 16-bit counters, `Option`.
- `RingBuffer`: the 256-slot receive and transmit rings of `serial.c`.
  - Indices are taken mod 256.
  - `Contents` is the FIFO the two indices describe.
- `Serial`: the serial driver.
  - `serial_initialize`, `serial_can_read`, `serial_read` and `serial_write`.
  - The data-register-empty (UDRE) and receive interrupts.
  - The LED-pulse timer.
- `ShutterController`: the firmware's shared state.
  - The command-byte switch of `poll_serial`.
  - The 10 Hz timer interrupt, written as its six sub-steps: heartbeat countdown, limit sampling, debounce of the open button, debounce of the close button, the stop check and the direction step.
- `StatusLine`: the status report of `poll_serial` and the 8-byte line `"%02d,%03d\r\n"`, plus `Parse`, a reference reader that inverts `Format`. None of the sources modelled here parses the line: `shutter.py:25` only echoes it, and the dome daemon that reads it is not among them.
- `Poll`: `poll_serial` as a method over the controller state and the serial port.
- `Watchdog`: properties over one or many ticks.
  - Status cadence, heartbeat countdown and its sticky trip.
  - The forced close, stop conditions and button debounce.
  - The two defects listed under Findings.
- `Decimal`: Python's `str` of an integer and its inverse.
- `Constants`: `CommandStatus` codes and `CommandStatus.message`.
- `Labels`: `AzimuthStatus`, `ShutterStatus` and `HeartbeatStatus`.
  - Their codes and their `label` methods, with and without markup.

How the hardware is represented:

- Limit switches and buttons are active-low pins. Here an `Inputs` value says directly whether each one is active.
- The bits of `current_flags` are five booleans.
- `ShutterController.Tick` is the timer interrupt with the correction of the open-limit defect described under Findings.
- `ShutterController.TickAsWritten` is the interrupt exactly as `main.c` writes it.
- Lemmas with a `guardReversal` parameter (`StepProperties`, `TickHeartbeat`, `TickStops`, `ReleaseOnTripTickCancelsClose`, `TickClock`) hold for both versions.
- Lemmas whose names end in `AsWritten`, and `TripLostAtOpenLimit`, `StrandedStaysStopped`, `RacedCommand` and `OpenByteOverridesTrip`, are about `TickAsWritten`.
- `ClockOfTicks`, `SilenceTrips`, `TripTickCloses`, `TripKeepsClosing` and `AtomicCommandKeepsTrip` are about `Tick`.
- `Poll.PollSerial` runs no timer interrupt, so it uses neither.

The status line is printed by `main.c:146` with `"%02d,%03d\r\n"`, so the
state takes two digits and the line is 8 bytes long. The state codes come
from `main.c:137-144`:

- 1 while opening and 2 while closing;
- otherwise 3 at the open limit and 4 at the closed limit;
- otherwise 0.

## Model

| member | source | states |
|---|---|---|
| RingBuffer.Count | shutter-controller/serial.c:35-41 | The number of pending bytes is below 256 and is zero exactly when the read and write indices meet. |
| RingBuffer.Contents | shutter-controller/serial.c:35-41 | The pending bytes, oldest first; there are exactly `Count` of them. |
| RingBuffer.WriteAfterRead | shutter-controller/serial.c:35-41 | The write index is the read index advanced by the number of pending bytes, mod 256. |
| RingBuffer.Push | shutter-controller/serial.c:109-114 | Storing at the write index and advancing it appends the byte when there is room. When 255 bytes were pending, the ring then reads as empty. |
| RingBuffer.Pop | shutter-controller/serial.c:77-81 | Taking from the read index returns the oldest pending byte. It leaves the rest pending in order and does not touch the write side. |
| RingBuffer.PushAllAppends | shutter-controller/serial.c:109-114 | Storing bytes that fit appends them all, in order. |
| RingBuffer.PopN | shutter-controller/serial.c:77-81 | Taking n bytes yields the first n pending bytes and leaves the rest. |
| RingBuffer.FifoRoundTrip | shutter-controller/serial.c:35-41 | Bytes stored into an empty ring come out in the same order, and the ring is empty afterwards. |
| RingBuffer.OverflowLooksEmpty | shutter-controller/serial.c:109-111 | 256 bytes stored into an empty ring, with no reads, leave it reading as empty: every byte is lost. |
| RingBuffer.PushAllSplit | shutter-controller/serial.c:109-114 | Storing a+b is storing a, then b. |
| Serial.Initialize | shutter-controller/serial.c:65-67 | Both rings are empty with indices 0, the transmit interrupt is off, and both LEDs are dark with no pulse. |
| Serial.CanRead | shutter-controller/serial.c:70-73 | True exactly when a received byte is pending. |
| Serial.Read | shutter-controller/serial.c:77-81 | Returns the oldest received byte and removes it. It advances the read index by one mod 256 and changes nothing else. |
| Serial.OutputFullMeansCount | shutter-controller/serial.c:88 | The "full" test `write == read - 1` holds exactly when 255 bytes are pending. |
| Serial.Write | shutter-controller/serial.c:85-93 | Appends the byte to the pending output and enables the transmit interrupt. The input side and the LEDs are left alone. |
| Serial.TransmitReady | shutter-controller/serial.c:95-107 | Sends the oldest pending byte when there is one and pulses the TX LED. The interrupt is disabled exactly once nothing is pending; when nothing was pending, the output is unchanged. |
| Serial.Receive | shutter-controller/serial.c:109-114 | Appends the received byte, losing the whole buffer on overflow. It pulses the RX LED and does not touch the output side. |
| Serial.LedTick | shutter-controller/serial.c:119-129 | A running pulse counts down by one and stops at zero. The LED is dark whenever its pulse is zero. |
| Serial.TimerTick | shutter-controller/serial.c:116-129 | Both LEDs tick, and nothing else changes. |
| Serial.PulseLength | shutter-controller/serial.c:101-129 | A freshly lit LED stays lit for exactly its pulse count of timer ticks and is then dark. |
| Serial.DarkStaysDark | shutter-controller/serial.c:124-129 | A dark LED with no pulse stays dark however many ticks pass. |
| Serial.TimerTicksMoveLeds | shutter-controller/serial.c:116-129 | n timer interrupts count each LED down on its own, n times, and leave both rings and the transmit interrupt alone. |
| Serial.ReceiveFlashesRx | shutter-controller/serial.c:111-129 | After a received byte, the RX LED is lit for exactly the first 10 timer ticks. |
| Serial.TransmitFlashesTx | shutter-controller/serial.c:97-129 | After a transmitted byte, the TX LED is lit for exactly the first 10 timer ticks. |
| Serial.TransmitInOrder | shutter-controller/serial.c:95-107 | n transmit interrupts send the first n pending bytes in write order and leave the rest. The interrupt stays enabled exactly while bytes remain. |
| Serial.WriteAll | shutter-controller/serial.c:85-93 | Writing a sequence appends it to the pending output. |
| Serial.WriteThenTransmit | shutter-controller/serial.c:85-107 | Bytes written to an idle port are transmitted exactly as written, after which the transmit interrupt is off. |
| ShutterController.PowerOnValid | shutter-controller/main.c:45-57 | The reset values of the globals satisfy the state invariant, and the motor is off. |
| ShutterController.Decode | shutter-controller/main.c:79-129 | Reads a command byte. 0xF1 is open, 0xF2 close, 0xFF stop and 0 disable; 1..240 arm the heartbeat; 0xF3..0xFE have no effect. |
| ShutterController.DecodeEncode | shutter-controller/main.c:79-129 | Decoding and encoding are inverse: every byte has exactly one meaning. |
| ShutterController.HandleByte | shutter-controller/main.c:81-129 | One received byte: open and close request a 650-tick run, stop clears the request, and 0 clears the trip, disarms and stops. 1..240 arms the heartbeat. After a trip every byte except 0 is ignored, and nothing the interrupt owns changes. |
| ShutterController.TripIgnoresBytes | shutter-controller/main.c:85-128 | A tripped controller ignores any run of bytes that contains no 0. |
| ShutterController.HandleBytesValid | shutter-controller/main.c:73-130 | Handling any run of bytes keeps the state invariant. |
| ShutterController.HandleBytesAppend | shutter-controller/main.c:73-130 | The bytes are handled one at a time, in arrival order. |
| ShutterController.HeartbeatStep | shutter-controller/main.c:188-203 | Every tenth tick raises the status request. If the heartbeat is armed and has not tripped, that tick also takes one second off it. Reaching zero trips it and requests a 650-tick close. |
| ShutterController.SampleLimits | shutter-controller/main.c:205-214 | The limit flags take the levels of the switches; nothing else changes. |
| ShutterController.DebounceOpen | shutter-controller/main.c:216-234 | A press on two consecutive ticks, away from the open limit, requests a 2-tick open. Releasing after a press requests a stop. The flag remembers this tick's level. |
| ShutterController.DebounceClose | shutter-controller/main.c:236-252 | The same for the close button and the closed limit. |
| ShutterController.MotorStop | shutter-controller/main.c:254-262 | At the running direction's limit, or when the run time reaches zero, the motor stops and the request and counter are cleared. Otherwise the counter counts down. The limit stop keeps a pending reversal only in the corrected version. |
| ShutterController.Drive | shutter-controller/main.c:264-293 | A running motor that is asked for anything else stops first; a stopped motor starts in the requested direction. The moving flag follows the motor. |
| ShutterController.TickAsWritten | shutter-controller/main.c:186-294 | One timer interrupt as written keeps the state invariant and the moving flag, and never reverses the motor without a stopped tick in between. |
| ShutterController.Tick | shutter-controller/main.c:186-294 | The same three guarantees for the corrected interrupt. |
| ShutterController.StepProperties | shutter-controller/main.c:186-294 | Both versions of the interrupt keep the invariant, keep the moving flag true to the motor, and never reverse directly. |
| ShutterController.StopChecksAgreeWithoutReversal | shutter-controller/main.c:254-262 | The corrected stop check differs from the written one only when a reversal is pending at the running direction's limit. |
| ShutterController.Ticks | shutter-controller/main.c:186-294 | Any run of ticks keeps the state invariant. |
| ShutterController.TicksAsWritten | shutter-controller/main.c:186-294 | Any run of ticks of the interrupt as main.c writes it keeps the state invariant. |
| StatusLine.Report | shutter-controller/main.c:137-144 | The heartbeat byte is 0xFF exactly when tripped, otherwise the seconds left. The state code is 1 or 2 exactly while the motor runs, and then names its direction. Otherwise it is 3 at the open limit, 4 at the closed limit, and 0 when at neither. |
| StatusLine.Format | shutter-controller/main.c:146 | `"%02d,%03d\r\n"` is 8 bytes, with the comma and CR LF in place. |
| StatusLine.ParseFormat | shutter-controller/main.c:146 | Parsing a printed line returns the printed values. |
| StatusLine.FormatParse | shutter-controller/main.c:146 | Every line that parses is the printout of the values it parses to. |
| StatusLine.LineOf | shutter-controller/main.c:132-150 | The 8 bytes sent for a state parse back to that state's report. |
| Poll.HandleInput | shutter-controller/main.c:73-130 | Drains the receive buffer, handling every pending byte in arrival order, and leaves the output side alone. |
| Poll.SendLine | shutter-controller/main.c:149-150 | Writes the line's bytes to the transmit buffer in order and enables transmission. |
| Poll.PollSerial | shutter-controller/main.c:70-154 | Handles all pending bytes in order. When a status report was requested, it appends exactly the 8-byte line for the resulting state and clears the request; otherwise the output is untouched. |
| Watchdog.TickHeartbeat | shutter-controller/main.c:188-203 | Over a whole tick: the status counter advances mod 10, and the heartbeat moves only on the tenth tick, by one second. A trip is never cleared, and a disarmed heartbeat stays disarmed. |
| Watchdog.TickClock | shutter-controller/main.c:188-203 | Whatever the inputs, a tick moves counter and heartbeat by the clock's own rule. It raises the status request exactly when the counter wraps. |
| Watchdog.ClockOfTicks | shutter-controller/main.c:188-203 | After n ticks of the corrected interrupt, counter and heartbeat are the clock's rule applied n times. |
| Watchdog.ClockOfTicksAsWritten | shutter-controller/main.c:188-203 | The same for n ticks of the interrupt as main.c writes it, so the cadence and countdown lemmas over the clock hold of the program itself. |
| Watchdog.ReportCadence | shutter-controller/main.c:188-191 | Over n ticks, the status request is raised (counter + n) / 10 times and the counter ends at (counter + n) mod 10. |
| Watchdog.Countdown | shutter-controller/main.c:193-202 | An armed heartbeat loses one second per ten ticks, and does not trip before its last second is gone. |
| Watchdog.ClockTrips | shutter-controller/main.c:193-202 | An armed clock with 10·n − counter ticks to go is one tick before its trip after all but the last of them, and tripped after the last. |
| Watchdog.SilenceTrips | shutter-controller/main.c:193-202 | For the corrected interrupt: with no further host byte, an armed heartbeat of n seconds trips on exactly tick 10·n − counter, whatever the limits and buttons do. |
| Watchdog.SilenceTripsAsWritten | shutter-controller/main.c:193-202 | The same exact trip tick for the interrupt as main.c writes it. |
| Watchdog.TripIsSticky | shutter-controller/main.c:194-198 | Once tripped, no run of ticks clears the trip. |
| Watchdog.ButtonMemory | shutter-controller/main.c:205-252 | After a tick, the limit and button flags hold that tick's levels. |
| Watchdog.HeldOpenButtonOpens | shutter-controller/main.c:216-234 | Holding the open button for two ticks away from the limits requests a 2-tick open, overriding any host or heartbeat request. The motor runs open, after a stopped tick if it was closing. |
| Watchdog.HeldCloseButtonCloses | shutter-controller/main.c:236-252 | The same for the close button. |
| Watchdog.TickStops | shutter-controller/main.c:254-262 | In either version of the interrupt, on a tick with no button pressed, none remembered from the tick before, no heartbeat trip, and a request equal to the running direction: the motor stops and forgets its request at its own limit or when its run time runs out. Otherwise it keeps running. |
| Watchdog.TripTickCloses | shutter-controller/main.c:196-201 | For the corrected interrupt, with no button pressed on the trip tick and none remembered from the tick before: on the trip tick a close with a full run time is pending and the motor is not opening. The one exception is a shutter already closing onto its closed limit, which stops there. |
| Watchdog.TripKeepsClosing | shutter-controller/main.c:196-293 | For the corrected interrupt, with no button in use on any of the ticks: after a trip, the close request survives every tick until the closed limit is reached or the run time ends. The motor runs closed from the second tick on. |
| Watchdog.TripTickClosesAsWritten | shutter-controller/main.c:196-201 | The same forced close on the trip tick for the interrupt as main.c writes it, except when an opening motor reaches its open limit on that tick. |
| Watchdog.TripKeepsClosingAsWritten | shutter-controller/main.c:196-293 | The same survival of the close request for the interrupt as main.c writes it, except when the first tick brings an opening motor to its open limit. |
| Watchdog.ReleaseOnTripTickCancelsClose | shutter-controller/main.c:196-252 | In either version of the interrupt, a button released on the trip tick requests a stop after the trip's close, so the controller ends the tick tripped, stopped and with no request. |
| Watchdog.TripLostAtOpenLimit | shutter-controller/main.c:196-262 | As written, a trip on the tick at which an opening shutter reaches its open limit leaves it tripped, stopped, open and with no request. The corrected tick keeps the close. |
| Watchdog.StrandedStaysStopped | shutter-controller/main.c:194-262 | As written, a tripped, stopped controller with no request stays stopped for every run of ticks without a button press. |
| Watchdog.RacedCommand | shutter-controller/main.c:85-108 | An open, close or stop byte whose trip test is overtaken by a timer tick ends with the trip state that tick leaves. When the tick does not trip, the result is the tick followed by the atomic byte handling. |
| Watchdog.OpenByteOverridesTrip | shutter-controller/main.c:84-92 | A tick that trips between the test and the assignment of an open byte leaves the controller tripped but requesting a full-length open, and two ticks later the shutter is opening. Atomic handling, before or after the tick, leaves the close request. |
| Watchdog.AtomicCommandKeepsTrip | shutter-controller/main.c:84-108 | For the corrected interrupt, with no button in use on the trip tick or the tick before: handled atomically, an open, close or stop byte is ignored after the trip tick, and before it cannot stop the trip tick from requesting the close. |
| Watchdog.AtomicCommandKeepsTripAsWritten | shutter-controller/main.c:84-108 | The same for the interrupt as main.c writes it, with only the race repaired, except when an opening motor reaches its open limit on the trip tick. |
| Decimal.IntToString | rockit/dome/pulsar/constants.py:63 | Python's `str` of an int: a sign exactly for negatives, then the canonical decimal digits of the magnitude. |
| Decimal.NatRoundTrip | rockit/dome/pulsar/constants.py:63 | The digits of n read back as n. |
| Decimal.CanonicalRoundTrip | rockit/dome/pulsar/constants.py:63 | Every canonical digit string is the printout of its value. |
| Decimal.IntRoundTrip | rockit/dome/pulsar/constants.py:63 | Parsing the printout of any integer returns it. |
| Decimal.ParseSound | rockit/dome/pulsar/constants.py:63 | Whatever parses is the printout of the integer it parses to. |
| Decimal.IntToStringInjective | rockit/dome/pulsar/constants.py:63 | Distinct integers print differently. |
| Constants.FromCode | rockit/dome/pulsar/constants.py:20-36 | Recovers the named result of a code, and fails exactly for codes no result uses. |
| Constants.CodesDistinct | rockit/dome/pulsar/constants.py:20-36 | Every result is recovered from its own code; no two share one. |
| Constants.Message | rockit/dome/pulsar/constants.py:58-63 | A listed code gives its table entry. Any other code gives "error: Unknown error code " followed by text that parses back to that code. |
| Constants.MessageIsError | rockit/dome/pulsar/constants.py:38-63 | Every message, listed or not, begins "error: ". |
| Constants.TableEntry | rockit/dome/pulsar/constants.py:38-56 | Every table entry begins "error: ", and none ends in a digit. |
| Constants.OnlySucceededUnlisted | rockit/dome/pulsar/constants.py:20-63 | Every named result except `Succeeded` has an entry. `Succeeded` gives "error: Unknown error code 0". |
| Constants.UnknownEndsInDigit | rockit/dome/pulsar/constants.py:63 | A message for an unlisted code ends in a digit. |
| Constants.TableInjective | rockit/dome/pulsar/constants.py:38-56 | No two codes share a table entry. |
| Constants.MessageInjective | rockit/dome/pulsar/constants.py:38-63 | Distinct codes get distinct messages, so a message identifies its code. |
| Labels.AzimuthFromCode | rockit/dome/pulsar/constants.py:65-67 | A rotation status exists exactly for codes 0..4, and its code is the one given. |
| Labels.ShutterFromCode | rockit/dome/pulsar/constants.py:100-102 | A shutter status exists exactly for codes 0..5, and its code is the one given. |
| Labels.HeartbeatFromCode | rockit/dome/pulsar/constants.py:137-139 | A heartbeat status exists exactly for codes 0..2, and its code is the one given. |
| Labels.CodesRoundTrip | rockit/dome/pulsar/constants.py:65-139 | Every member of each enumeration is recovered from its code, so no two members share a code. |
| Labels.Label | rockit/dome/pulsar/constants.py:85-98 | Unformatted by default, as in Python. Without markup: the table label, and "UNKNOWN" exactly when there is none. With markup: the label in bold and in its colour when both tables list the code, and the red bold "UNKNOWN" exactly when there is no entry. |
| Labels.KnownLabelIsNotUnknown | rockit/dome/pulsar/constants.py:65-151 | A code has a label exactly when it has a colour. No listed label is "UNKNOWN", nor does it render like the unknown one. |
| Labels.StripDecorate | rockit/dome/pulsar/constants.py:93 | Removing the `[b][color]…[/color][/b]` markup from a decorated text gives back the text. |
| Labels.TablesHaveNoBrackets | rockit/dome/pulsar/constants.py:65-151 | No label or colour in any of the three enumerations contains a markup bracket. |
| Labels.FormattedShowsPlain | rockit/dome/pulsar/constants.py:91-98 | For every enumeration and every code, the formatted label with its markup removed is the plain label. |
| Labels.EnumMembersLabelled | rockit/dome/pulsar/constants.py:65-166 | Every member of each enumeration has a label. A code reads "UNKNOWN" exactly when it is outside its enumeration. |

`Labels.Label` models the three identical `label` methods:
`rockit/dome/pulsar/constants.py:85-98`, `122-135` and `153-166`. They differ
only in their tables, which `Labels.LabelEntry` and `Labels.ColorEntry` select
by `Kind`.

## Left out

- Pin, baud-rate and timer configuration, and driving the relay and LED pins (`main.c:156-184`, `serial.c:43-63`). These are hardware register writes. The motor relays are on exactly when `DriveEnabled` holds, and an LED is lit exactly when `lit` is true.
- Interrupt preemption. Each interrupt and each `cli()`/`sei()` section of `poll_serial` is one atomic step, and the receive loop drains the buffer without being interleaved with the receive interrupt. Concurrency between the main loop and interrupts is not modelled.
- Busy-waits. `serial_read` blocking on an empty buffer becomes the precondition `CanRead`, and `serial_write` blocking on a full one becomes `!OutputFull`. `Poll.PollSerial` requires room for the 8-byte line, because draining the output while the loop waits needs preemption.
- The `value < 0` break in `poll_serial` (`main.c:76-77`). It cannot fire, because `serial_read` returns an unsigned byte.
- `snprintf` in general, and the 16-byte `output_buffer`. `StatusLine.Format` covers the values `poll_serial` can print: a state of at most 4 and a heartbeat byte of at most 255, which fit the field widths.
- The `label` and `message` methods for arguments that are not integers. Python would accept any hashable value; the model takes integers.
- Constants.Message and Decimal.IntToString do not model CPython's limit on converting large integers to text (4300 digits by default, `sys.set_int_max_str_digits`). Beyond it, `CommandStatus.message` raises `ValueError`, while the model returns the string. No error code comes near that size.
- The command-line script `shutter.py`, which writes one command or heartbeat byte and echoes the lines it receives; the configuration in `rockit/dome/pulsar/config.py`; and `serial.h`. They are not part of this model. The dome daemon is not among these sources.
- Watchdog.TripTickCloses and Watchdog.TripKeepsClosing promise the forced close only while no button is in use. A button released on the trip tick cancels the close for good, in either version of the interrupt (`Watchdog.ReleaseOnTripTickCancelsClose`, `main.c:230-231` and `248-249`). A release is an operator's stop request, so the model keeps this behaviour rather than treating it as a defect.
- ShutterController.HandleByte treats the trip test of the open, close and stop bytes (`main.c:85`, `96` and `107`) and the assignment that follows as one atomic step, which is the evidently intended behaviour. In the source the test runs outside the `cli()` section, so a timer interrupt can trip the heartbeat between the two. `Watchdog.RacedCommand` models that interleaving, and the resulting defect is listed under Findings.

## Findings

| source | as written | input that shows it | evidently intended | confidence | as-written member | corrected member |
|---|---|---|---|---|---|---|
| shutter-controller/main.c:188-262 | On the tenth tick the heartbeat trip sets the request to close with a full run time. The stop check later in the same interrupt sees the motor running open at the open limit, so it clears the request and the run time. The trip is sticky, so the close is never requested again and the shutter stays open while the status reports the trip. | `Watchdog.OpeningBeforeTrip`: opening, 100 ticks left, heartbeat 1 s, counter 9. The next tick's inputs, `Watchdog.ReachesOpenLimit`, have the open limit becoming active. | A limit stop should not discard a pending reversal. The motor stops for one tick, then closes; `Watchdog.TripTickCloses` and `Watchdog.TripKeepsClosing` prove this for the corrected tick. | not executed | Watchdog.TripLostAtOpenLimit | ShutterController.Tick |
| shutter-controller/main.c:85-108 | `poll_serial` tests `heartbeat_triggered` for the open, close and stop bytes before, and outside, the `cli()` section that assigns the request. A timer interrupt that trips the heartbeat between the test and the assignment has its forced close overwritten: an open byte starts a full-length open, and a stop byte cancels the close. The trip is sticky, so the close is never requested again. | `Watchdog.StoppedBeforeTrip`: stopped, heartbeat 1 s, counter 9; byte 0xF1 read, then a tick with `Watchdog.Idle` inputs falls between the test and the assignment. | The test should sit inside the same `cli()` section as the assignment, so that a tripped heartbeat always wins. With no button in use, `Watchdog.AtomicCommandKeepsTrip` proves that atomic handling keeps the forced close in either order for the corrected interrupt. `Watchdog.AtomicCommandKeepsTripAsWritten` proves the same with only the race repaired, except when the trip tick meets the open limit. | not executed | Watchdog.OpenByteOverridesTrip | ShutterController.HandleByte |

=== FILE: common.dfy ===
/** Small shared vocabulary: the machine's unsigned integer widths and an option type. */
module Common {

  /** An 8-bit unsigned value (`uint8_t`). */
  type byte = x: int | 0 <= x < 256

  /** A 16-bit unsigned value (`uint16_t`). */
  type uint16 = x: int | 0 <= x < 0x1_0000

  /** Truncation of an integer to `uint8_t`, as C does on assignment. */
  function ToByte(x: int): (r: byte)
    ensures 0 <= x < 256 ==> r == x
    ensures (r - x) % 256 == 0
  {
    x % 256
  }

  datatype Option<+T> = None | Some(value: T)
}

=== FILE: constants.dfy ===
/**
  The daemon's numeric command results and their human readable messages
  (`CommandStatus` in rockit/dome/pulsar/constants.py).
*/
module Constants {
  import opened Common
  import Decimal

  /** The named result codes a command can return. */
  datatype CommandStatus =
    | Succeeded
    | Failed
    | Blocked
    | InvalidControlIP
    | NotConnected
    | NotDisconnected
    | NotHomed
    | HeartbeatTimedOut
    | HeartbeatCloseInProgress
    | HeartbeatInvalidTimeout
    | EngineeringModeRequiresHeartbeatDisabled
    | EngineeringModeActive
  {
    /** The integer sent over the wire for this result. */
    function Code(): int {
      match this
      case Succeeded => 0
      case Failed => 1
      case Blocked => 2
      case InvalidControlIP => 3
      case NotConnected => 7
      case NotDisconnected => 8
      case NotHomed => 9
      case HeartbeatTimedOut => 13
      case HeartbeatCloseInProgress => 14
      case HeartbeatInvalidTimeout => 16
      case EngineeringModeRequiresHeartbeatDisabled => 17
      case EngineeringModeActive => 18
    }
  }

  /** Recovers the named result from its code; `None` for codes no result uses. */
  function FromCode(n: int): (r: Option<CommandStatus>)
    ensures r.Some? ==> r.value.Code() == n
    ensures r.None? ==> forall c: CommandStatus :: c.Code() != n
  {
    match n
    case 0 => Some(Succeeded)
    case 1 => Some(Failed)
    case 2 => Some(Blocked)
    case 3 => Some(InvalidControlIP)
    case 7 => Some(NotConnected)
    case 8 => Some(NotDisconnected)
    case 9 => Some(NotHomed)
    case 13 => Some(HeartbeatTimedOut)
    case 14 => Some(HeartbeatCloseInProgress)
    case 16 => Some(HeartbeatInvalidTimeout)
    case 17 => Some(EngineeringModeRequiresHeartbeatDisabled)
    case 18 => Some(EngineeringModeActive)
    case _ => None
  }

  /** Every result is recovered from its own code, so no two results share one. */
  lemma CodesDistinct(a: CommandStatus, b: CommandStatus)
    ensures FromCode(a.Code()) == Some(a)
    ensures a.Code() == b.Code() ==> a == b
  {
  }

  /** The `_messages` table, as a lookup; `Succeeded` deliberately has no entry.
      Each text is written as its "error: " head joined to the rest. */
  function Entry(code: int): (r: Option<string>)
    ensures r.Some? <==> Detail(code).Some?
  {
    if Detail(code).Some? then Some(ErrorPrefix + Detail(code).value) else None
  }

  const ErrorPrefix: string := "error: "

  /** What each table entry says after its "error: " head. */
  function Detail(code: int): Option<string> {
    match code
    case 1 => Some("command failed")
    case 2 => Some("another command is already running")
    case 3 => Some("command not accepted from this IP")
    case 7 => Some("dome is not connected")
    case 8 => Some("dome is already connected")
    case 9 => Some("dome has not been homed")
    case 13 => Some("heartbeat has tripped")
    case 14 => Some("heartbeat is closing the dome")
    case 16 => Some("heartbeat timeout must be less than 120s")
    case 17 => Some("heartbeat must be disabled before enabling engineering mode")
    case 18 => Some("dome is in engineering mode")
    case -100 => Some("terminated by user")
    case -101 => Some("unable to communicate with dome daemon")
    case _ => None
  }

  const UnknownPrefix: string := "error: Unknown error code "

  /** `CommandStatus.message`: the table entry, or a message naming the unknown code. */
  function Message(code: int): (r: string)
    ensures Entry(code).Some? ==> r == Entry(code).value
    ensures Entry(code).None? ==> |r| > |UnknownPrefix| && r[..|UnknownPrefix|] == UnknownPrefix
    ensures Entry(code).None? ==> Decimal.Parse(r[|UnknownPrefix|..]) == Some(code)
  {
    if Entry(code).Some? then Entry(code).value
    else
      var r := UnknownPrefix + Decimal.IntToString(code);
      assert r[|UnknownPrefix|..] == Decimal.IntToString(code);
      Decimal.IntRoundTrip(code);
      r
  }

  /** Every message, known or not, reads as an error. */
  lemma MessageIsError(code: int)
    ensures |Message(code)| > 7 && Message(code)[..7] == ErrorPrefix
  {
    if Entry(code).Some? {
      TableEntry(code);
    } else {
      assert Message(code)[..7] == Message(code)[..|UnknownPrefix|][..7];
    }
  }

  /** Facts about one table entry: it reads as an error and, unlike every unknown-code
      message, does not end in a digit. */
  lemma TableEntry(code: int)
    requires Entry(code).Some?
    ensures |Entry(code).value| > 7
    ensures Entry(code).value[..7] == ErrorPrefix
    ensures !Decimal.IsDigit(Entry(code).value[|Entry(code).value| - 1])
  {
    var m, d := Entry(code).value, Detail(code).value;
    DetailEndsInLetter(code);
    assert m[|m| - 1] == d[|d| - 1];
  }

  lemma DetailEndsInLetter(code: int)
    requires Detail(code).Some?
    ensures |Detail(code).value| > 0
    ensures !Decimal.IsDigit(Detail(code).value[|Detail(code).value| - 1])
  {
    if 1 <= code <= 9 {
      GeneralEndsInLetter(code);
    } else {
      DomeEndsInLetter(code);
    }
  }

  /** The general codes 1 to 9. */
  lemma GeneralEndsInLetter(code: int)
    requires Detail(code).Some? && 1 <= code <= 9
    ensures |Detail(code).value| > 0
    ensures !Decimal.IsDigit(Detail(code).value[|Detail(code).value| - 1])
  {
    match code
    case 1 =>
    case 2 =>
    case 3 =>
    case 7 =>
    case 8 =>
    case 9 =>
  }

  /** The dome-specific codes and the two negative ones. */
  lemma DomeEndsInLetter(code: int)
    requires Detail(code).Some? && !(1 <= code <= 9)
    ensures |Detail(code).value| > 0
    ensures !Decimal.IsDigit(Detail(code).value[|Detail(code).value| - 1])
  {
    match code
    case 13 =>
    case 14 =>
    case 16 =>
    case 17 =>
    case 18 =>
    case -100 =>
    case -101 =>
  }

  /** The one result with no entry of its own is `Succeeded`. */
  lemma OnlySucceededUnlisted(c: CommandStatus)
    ensures Entry(c.Code()).Some? <==> c != Succeeded
    ensures Message(Succeeded.Code()) == "error: Unknown error code 0"
  {
    assert Decimal.IntToString(0) == "0";
  }

  /** Different codes never share a message, so the message identifies the code. */
  lemma MessageInjective(a: int, b: int)
    requires Message(a) == Message(b)
    ensures a == b
  {
    var ma, mb := Message(a), Message(b);
    if Entry(a).Some? && Entry(b).Some? {
      TableInjective(a, b);
    } else if Entry(a).None? && Entry(b).None? {
      assert ma[|UnknownPrefix|..] == mb[|UnknownPrefix|..];
    } else if Entry(a).Some? {
      TableEntry(a);
      UnknownEndsInDigit(b);
    } else {
      TableEntry(b);
      UnknownEndsInDigit(a);
    }
  }

  /** A message for an unknown code ends with the code's last digit. */
  lemma UnknownEndsInDigit(code: int)
    requires Entry(code).None?
    ensures Decimal.IsDigit(Message(code)[|Message(code)| - 1])
  {
    var t := Decimal.IntToString(code);
    var digits := if code < 0 then t[1..] else t;
    assert t[|t| - 1] == digits[|digits| - 1];
    assert Message(code)[|Message(code)| - 1] == t[|t| - 1];
  }

  lemma TableInjective(a: int, b: int)
    requires Entry(a).Some? && Entry(a) == Entry(b)
    ensures a == b
  {
    assert Detail(a).value == Entry(a).value[|ErrorPrefix|..];
    assert Detail(b).value == Entry(b).value[|ErrorPrefix|..];
    KeyOfDetail(a);
    KeyOfDetail(b);
  }

  lemma KeyOfDetail(k: int)
    requires Detail(k).Some?
    ensures DetailKey(Detail(k).value) == k
  {
    if 1 <= k <= 9 {
      KeyOfGeneral(k);
    } else {
      KeyOfDome(k);
    }
  }

  lemma KeyOfGeneral(k: int)
    requires Detail(k).Some? && 1 <= k <= 9
    ensures DetailKey(Detail(k).value) == k
  {
    match k
    case 1 =>
    case 2 =>
    case 3 =>
    case 7 =>
    case 8 =>
    case 9 =>
  }

  lemma KeyOfDome(k: int)
    requires Detail(k).Some? && !(1 <= k <= 9)
    ensures DetailKey(Detail(k).value) == k
  {
    match k
    case 13 =>
    case 14 =>
    case 16 =>
    case 17 =>
    case 18 =>
    case -100 =>
    case -101 =>
  }

  /** Reads an entry's detail back to its code from its length and first character. */
  function DetailKey(d: string): int {
    match |d|
    case 14 => 1
    case 34 => 2
    case 33 => 3
    case 21 => if |d| > 0 && d[0] == 'd' then 7 else 13
    case 25 => 8
    case 23 => 9
    case 29 => 14
    case 40 => 16
    case 59 => 17
    case 27 => 18
    case 18 => -100
    case 38 => -101
    case _ => 0
  }
}

=== FILE: decimal.dfy ===
/**
  Decimal text for integers, as Python's `str(int)` writes it: an optional
  minus sign followed by digits with no leading zero (except "0" itself).
  `Parse` is the independent reader used to show the encoding is faithful.
*/
module Decimal {
  import opened Common

  predicate IsDigit(c: char) {
    '0' <= c <= '9'
  }

  predicate AllDigits(s: string) {
    forall i :: 0 <= i < |s| ==> IsDigit(s[i])
  }

  /** A non-empty run of digits without a superfluous leading zero. */
  predicate Canonical(s: string) {
    |s| >= 1 && AllDigits(s) && (|s| > 1 ==> s[0] != '0')
  }

  function DigitChar(d: nat): (c: char)
    requires d < 10
    ensures IsDigit(c) && (c as int) - ('0' as int) == d
  {
    (('0' as int) + d) as char
  }

  function DigitValue(c: char): (d: nat)
    requires IsDigit(c)
    ensures d < 10 && DigitChar(d) == c
  {
    (c as int) - ('0' as int)
  }

  /** Decimal digits of a natural number, most significant first. */
  function NatToString(n: nat): (r: string)
    ensures Canonical(r)
    ensures n < 10 <==> |r| == 1
  {
    if n < 10 then [DigitChar(n)] else NatToString(n / 10) + [DigitChar(n % 10)]
  }

  /** The number a run of digits denotes. */
  function DigitsValue(s: string): nat
    requires AllDigits(s)
  {
    if |s| == 0 then 0 else DigitsValue(s[..|s| - 1]) * 10 + DigitValue(s[|s| - 1])
  }

  /** Python's `str` on an `int`. */
  function IntToString(n: int): (r: string)
    ensures |r| >= 1
    ensures n < 0 <==> r[0] == '-'
    ensures n >= 0 ==> r == NatToString(n)
    ensures n < 0 ==> r[1..] == NatToString(-n)
  {
    if n < 0 then "-" + NatToString(-n) else NatToString(n)
  }

  /** Reads back exactly the strings `IntToString` produces. */
  function Parse(s: string): Option<int> {
    if |s| >= 1 && s[0] == '-' then
      var t := s[1..];
      if Canonical(t) && t != "0" then Some(0 - DigitsValue(t) as int) else None
    else if Canonical(s) then Some(DigitsValue(s))
    else None
  }

  lemma {:induction false} NatRoundTrip(n: nat)
    ensures DigitsValue(NatToString(n)) == n
  {
    if n >= 10 {
      var s := NatToString(n);
      var p := NatToString(n / 10);
      assert s[..|s| - 1] == p;
      NatRoundTrip(n / 10);
    }
  }

  lemma {:induction false} CanonicalRoundTrip(s: string)
    requires Canonical(s)
    ensures NatToString(DigitsValue(s)) == s
    decreases |s|
  {
    var n := DigitsValue(s);
    var last := DigitValue(s[|s| - 1]);
    if |s| == 1 {
      assert n == last;
    } else {
      var p := s[..|s| - 1];
      assert Canonical(p);
      LeadingDigitPositive(p);
      assert n / 10 == DigitsValue(p) && n % 10 == last;
      CanonicalRoundTrip(p);
      assert s == p + [s[|s| - 1]];
    }
  }

  /** A canonical run of two or more digits denotes at least ten. */
  lemma {:induction false} LeadingDigitPositive(s: string)
    requires Canonical(s)
    ensures |s| > 1 ==> DigitsValue(s) >= 10
    ensures s != "0" ==> DigitsValue(s) > 0
    decreases |s|
  {
    if |s| > 1 {
      var p := s[..|s| - 1];
      assert Canonical(p) && p != "0" by {
        assert p[0] == s[0];
      }
      LeadingDigitPositive(p);
    } else if s != "0" {
      assert s == [s[0]];
    }
  }

  /** `Parse` inverts `IntToString` on every integer. */
  lemma IntRoundTrip(n: int)
    ensures Parse(IntToString(n)) == Some(n)
  {
    if n < 0 {
      var t := NatToString(-n);
      assert IntToString(n)[1..] == t;
      NatRoundTrip(-n);
      assert t != "0";
    } else {
      NatRoundTrip(n);
    }
  }

  /** Every string `Parse` accepts is the text of the value it denotes. */
  lemma ParseSound(s: string, n: int)
    requires Parse(s) == Some(n)
    ensures IntToString(n) == s
  {
    if |s| >= 1 && s[0] == '-' {
      var t := s[1..];
      CanonicalRoundTrip(t);
      LeadingDigitPositive(t);
      assert s == "-" + t;
    } else {
      CanonicalRoundTrip(s);
    }
  }

  /** Different integers have different texts. */
  lemma IntToStringInjective(a: int, b: int)
    requires IntToString(a) == IntToString(b)
    ensures a == b
  {
    IntRoundTrip(a);
    IntRoundTrip(b);
  }
}

=== FILE: labels.dfy ===
/**
  The daemon's status enumerations and their display labels: `AzimuthStatus`,
  `ShutterStatus` and `HeartbeatStatus` in rockit/dome/pulsar/constants.py.
  The three classes share one `label` implementation over their own
  `_labels` and `_colors` tables; here that implementation is `Label`, and
  the table it consults is chosen by a `Kind`.
*/
module Labels {
  import opened Common

  datatype AzimuthStatus = Disconnected | NotHomed | Idle | Moving | Homing {
    function Code(): int {
      match this
      case Disconnected => 0
      case NotHomed => 1
      case Idle => 2
      case Moving => 3
      case Homing => 4
    }
  }

  datatype ShutterStatus = PartOpen | Open | Closed | Opening | Closing | ShutterDisconnected {
    function Code(): int {
      match this
      case PartOpen => 0
      case Open => 1
      case Closed => 2
      case Opening => 3
      case Closing => 4
      case ShutterDisconnected => 5
    }
  }

  datatype HeartbeatStatus = Disabled | Active | TimedOut {
    function Code(): int {
      match this
      case Disabled => 0
      case Active => 1
      case TimedOut => 2
    }
  }

  /** `range(5)` assigns 0..4 in declaration order: the code identifies the status. */
  function AzimuthFromCode(n: int): (r: Option<AzimuthStatus>)
    ensures r.Some? <==> 0 <= n < 5
    ensures r.Some? ==> r.value.Code() == n
  {
    match n
    case 0 => Some(Disconnected)
    case 1 => Some(NotHomed)
    case 2 => Some(Idle)
    case 3 => Some(Moving)
    case 4 => Some(Homing)
    case _ => None
  }

  /** `range(6)` assigns 0..5 in declaration order. */
  function ShutterFromCode(n: int): (r: Option<ShutterStatus>)
    ensures r.Some? <==> 0 <= n < 6
    ensures r.Some? ==> r.value.Code() == n
  {
    match n
    case 0 => Some(PartOpen)
    case 1 => Some(Open)
    case 2 => Some(Closed)
    case 3 => Some(Opening)
    case 4 => Some(Closing)
    case 5 => Some(ShutterDisconnected)
    case _ => None
  }

  /** `range(3)` assigns 0..2 in declaration order. */
  function HeartbeatFromCode(n: int): (r: Option<HeartbeatStatus>)
    ensures r.Some? <==> 0 <= n < 3
    ensures r.Some? ==> r.value.Code() == n
  {
    match n
    case 0 => Some(Disabled)
    case 1 => Some(Active)
    case 2 => Some(TimedOut)
    case _ => None
  }

  /** Each status is the one its own code names, so codes are pairwise distinct. */
  lemma CodesRoundTrip(a: AzimuthStatus, s: ShutterStatus, h: HeartbeatStatus)
    ensures AzimuthFromCode(a.Code()) == Some(a)
    ensures ShutterFromCode(s.Code()) == Some(s)
    ensures HeartbeatFromCode(h.Code()) == Some(h)
  {
  }

  /** Which class's tables `Label` consults. */
  datatype Kind = AzimuthKind | ShutterKind | HeartbeatKind

  /** The `_labels` tables. */
  function LabelEntry(k: Kind, status: int): Option<string> {
    match k
    case AzimuthKind =>
      (match status
       case 0 => Some("DISCONNECTED")
       case 1 => Some("NOT HOMED")
       case 2 => Some("IDLE")
       case 3 => Some("MOVING")
       case 4 => Some("HOMING")
       case _ => None)
    case ShutterKind =>
      (match status
       case 0 => Some("PART OPEN")
       case 1 => Some("OPEN")
       case 2 => Some("CLOSED")
       case 3 => Some("OPENING")
       case 4 => Some("CLOSING")
       case 5 => Some("DISCONNECTED")
       case _ => None)
    case HeartbeatKind =>
      (match status
       case 0 => Some("DISABLED")
       case 1 => Some("ACTIVE")
       case 2 => Some("TIMED OUT")
       case _ => None)
  }

  /** The `_colors` tables. */
  function ColorEntry(k: Kind, status: int): Option<string> {
    match k
    case AzimuthKind =>
      (match status
       case 0 => Some("red")
       case 1 => Some("red")
       case 2 => Some("default")
       case 3 => Some("yellow")
       case 4 => Some("yellow")
       case _ => None)
    case ShutterKind =>
      (match status
       case 0 => Some("cyan")
       case 1 => Some("green")
       case 2 => Some("red")
       case 3 => Some("yellow")
       case 4 => Some("yellow")
       case 5 => Some("red")
       case _ => None)
    case HeartbeatKind =>
      (match status
       case 0 => Some("default")
       case 1 => Some("green")
       case 2 => Some("red")
       case _ => None)
  }

  /** Terminal markup: bold, and coloured with `color`. */
  function Decorate(color: string, text: string): string {
    "[b][" + color + "]" + text + "[/" + color + "][/b]"
  }

  /** The text `label` returns for a status with no entry; formatted, it is "[b][red]UNKNOWN[/red][/b]". */
  const Unknown: string := "UNKNOWN"

  /** The `label` classmethod; like it, unformatted unless asked. */
  function Label(k: Kind, status: int, formatting: bool := false): (r: string)
    ensures !formatting ==> (r == Unknown <==> LabelEntry(k, status).None?)
    ensures formatting ==> (r == Decorate("red", Unknown) <==> LabelEntry(k, status).None?)
    ensures !formatting && LabelEntry(k, status).Some? ==> r == LabelEntry(k, status).value
    ensures formatting && LabelEntry(k, status).Some? && ColorEntry(k, status).Some? ==>
      r == Decorate(ColorEntry(k, status).value, LabelEntry(k, status).value)
  {
    KnownLabelIsNotUnknown(k, status);
    if formatting then
      if LabelEntry(k, status).Some? && ColorEntry(k, status).Some? then
        Decorate(ColorEntry(k, status).value, LabelEntry(k, status).value)
      else
        Decorate("red", Unknown)
    else if LabelEntry(k, status).Some? then
      LabelEntry(k, status).value
    else
      Unknown
  }

  /** No table entry spells UNKNOWN, and each class's two tables have the same keys. */
  lemma KnownLabelIsNotUnknown(k: Kind, status: int)
    ensures LabelEntry(k, status).Some? <==> ColorEntry(k, status).Some?
    ensures LabelEntry(k, status).Some? ==> LabelEntry(k, status).value != Unknown
    ensures LabelEntry(k, status).Some? ==> Decorate(ColorEntry(k, status).value, LabelEntry(k, status).value) != Decorate("red", Unknown)
  {
    if LabelEntry(k, status).Some? {
      var l, c := LabelEntry(k, status).value, ColorEntry(k, status).value;
      assert l != Unknown;
      if Decorate(c, l) == Decorate("red", Unknown) {
        StripDecorate(c, l);
        StripDecorate("red", Unknown);
      }
    }
  }

  // ---- Reading labels back: markup stripping ----

  predicate NoBrackets(s: string) {
    forall i :: 0 <= i < |s| ==> s[i] != '[' && s[i] != ']'
  }

  /** The visible text of `s`: everything outside `[...]` tags. `inTag` says whether
      the scan starts inside a tag. */
  function Strip(s: string, inTag: bool): string {
    if |s| == 0 then ""
    else if inTag then Strip(s[1..], s[0] != ']')
    else if s[0] == '[' then Strip(s[1..], true)
    else [s[0]] + Strip(s[1..], false)
  }

  /** Whether the scan of `s` ends inside a tag. */
  function EndsInTag(s: string, inTag: bool): bool {
    if |s| == 0 then inTag
    else if inTag then EndsInTag(s[1..], s[0] != ']')
    else EndsInTag(s[1..], s[0] == '[')
  }

  lemma {:induction false} StripConcat(a: string, b: string, inTag: bool)
    ensures Strip(a + b, inTag) == Strip(a, inTag) + Strip(b, EndsInTag(a, inTag))
    ensures EndsInTag(a + b, inTag) == EndsInTag(b, EndsInTag(a, inTag))
    decreases |a|
  {
    if |a| > 0 {
      assert (a + b)[1..] == a[1..] + b;
      var next := if inTag then a[0] != ']' else a[0] == '[';
      StripConcat(a[1..], b, next);
    } else {
      assert a + b == b;
    }
  }

  /** Text without brackets is all visible outside a tag and all hidden inside one. */
  lemma {:induction false} StripPlain(s: string)
    requires NoBrackets(s)
    ensures Strip(s, false) == s && !EndsInTag(s, false)
    ensures Strip(s, true) == "" && EndsInTag(s, true)
  {
    if |s| > 0 {
      StripPlain(s[1..]);
      assert s == [s[0]] + s[1..];
    }
  }

  /** Stripping the markup from a decorated label leaves the label. */
  lemma StripDecorate(color: string, text: string)
    requires NoBrackets(color) && NoBrackets(text)
    ensures Strip(Decorate(color, text), false) == text
  {
    StripPlain(color);
    StripPlain(text);
    var p1 := "[b][";
    var p2 := "]";
    var p3 := "[/";
    var p4 := "][/b]";
    assert Strip(p1, false) == "" && EndsInTag(p1, false);
    assert Strip(p2, true) == "" && !EndsInTag(p2, true);
    assert Strip(p3, false) == "" && EndsInTag(p3, false);
    assert Strip(p4, true) == "" && !EndsInTag(p4, true);
    StripConcat(p1, color, false);
    StripConcat(p1 + color, p2, false);
    StripConcat(p1 + color + p2, text, false);
    StripConcat(p1 + color + p2 + text, p3, false);
    StripConcat(p1 + color + p2 + text + p3, color, false);
    StripConcat(p1 + color + p2 + text + p3 + color, p4, false);
  }

  lemma TablesHaveNoBrackets(k: Kind, status: int)
    ensures LabelEntry(k, status).Some? ==> NoBrackets(LabelEntry(k, status).value)
    ensures ColorEntry(k, status).Some? ==> NoBrackets(ColorEntry(k, status).value)
  {
    match k
    case AzimuthKind => AzimuthNoBrackets(status);
    case ShutterKind => ShutterNoBrackets(status);
    case HeartbeatKind => HeartbeatNoBrackets(status);
  }

  /** The rotation tables. */
  lemma AzimuthNoBrackets(status: int)
    ensures LabelEntry(AzimuthKind, status).Some? ==> NoBrackets(LabelEntry(AzimuthKind, status).value)
    ensures ColorEntry(AzimuthKind, status).Some? ==> NoBrackets(ColorEntry(AzimuthKind, status).value)
  {
  }

  /** The shutter tables. */
  lemma ShutterNoBrackets(status: int)
    ensures LabelEntry(ShutterKind, status).Some? ==> NoBrackets(LabelEntry(ShutterKind, status).value)
    ensures ColorEntry(ShutterKind, status).Some? ==> NoBrackets(ColorEntry(ShutterKind, status).value)
  {
  }

  /** The heartbeat tables. */
  lemma HeartbeatNoBrackets(status: int)
    ensures LabelEntry(HeartbeatKind, status).Some? ==> NoBrackets(LabelEntry(HeartbeatKind, status).value)
    ensures ColorEntry(HeartbeatKind, status).Some? ==> NoBrackets(ColorEntry(HeartbeatKind, status).value)
  {
  }

  /** The formatted label shows exactly the unformatted one once its markup is removed. */
  lemma FormattedShowsPlain(k: Kind, status: int)
    ensures Strip(Label(k, status, true), false) == Label(k, status)
  {
    TablesHaveNoBrackets(k, status);
    KnownLabelIsNotUnknown(k, status);
    if LabelEntry(k, status).Some? {
      StripDecorate(ColorEntry(k, status).value, LabelEntry(k, status).value);
    } else {
      StripDecorate("red", Unknown);
    }
  }

  /** Every member of each enumeration has a label, and codes outside the enumeration have none. */
  lemma EnumMembersLabelled(a: AzimuthStatus, s: ShutterStatus, h: HeartbeatStatus, n: int)
    ensures Label(AzimuthKind, a.Code(), false) != Unknown
    ensures Label(ShutterKind, s.Code(), false) != Unknown
    ensures Label(HeartbeatKind, h.Code(), false) != Unknown
    ensures Label(AzimuthKind, n, false) == Unknown <==> AzimuthFromCode(n).None?
    ensures Label(ShutterKind, n, false) == Unknown <==> ShutterFromCode(n).None?
    ensures Label(HeartbeatKind, n, false) == Unknown <==> HeartbeatFromCode(n).None?
  {
  }
}

=== FILE: poll.dfy ===
/**
  `poll_serial` of shutter-controller/main.c, run on the serial port of
  shutter-controller/serial.c: handle every received byte in order, then, if
  the timer asked for one, queue the 8-byte status line for transmission.
*/
module Poll {
  import opened Common
  import opened RingBuffer
  import opened Serial
  import opened ShutterController
  import opened StatusLine

  /** The receive loop: handles every byte waiting in the receive buffer, oldest first. */
  method HandleInput(c: State, p: Port) returns (c': State, p': Port)
    requires c.Valid() && p.Valid()
    ensures c'.Valid() && p'.Valid()
    ensures c' == HandleBytes(c, Contents(p.input))
    ensures Contents(p'.input) == []
    ensures p'.output == p.output && p'.udre == p.udre
  {
    c', p' := c, p;
    ghost var all := Contents(p.input);
    ghost var k := 0;
    while CanRead(p')
      invariant p'.Valid() && p'.output == p.output && p'.udre == p.udre
      invariant 0 <= k <= |all| && Contents(p'.input) == all[k..]
      invariant c' == HandleBytes(c, all[..k])
      decreases |all| - k
    {
      var (b, p1) := Read(p');
      NextByte(c, all, k, b);
      p' := p1;
      c' := HandleByte(c', b);
      k := k + 1;
    }
    assert all[..k] == all;
    HandleBytesValid(c, all);
  }

  lemma NextByte(c: State, all: seq<byte>, k: nat, b: byte)
    requires k < |all| && b == all[k]
    ensures HandleBytes(c, all[..k + 1]) == HandleByte(HandleBytes(c, all[..k]), b)
  {
    assert all[..k + 1] == all[..k] + [b];
    HandleBytesAppend(c, all[..k], b);
  }

  /** The transmit loop: writes the bytes of a line one by one. */
  method SendLine(p: Port, line: seq<byte>) returns (p': Port)
    requires p.Valid() && Count(p.output) + |line| < Size
    ensures p'.Valid()
    ensures Contents(p'.output) == Contents(p.output) + line
    ensures |line| > 0 ==> p'.udre
    ensures p'.input == p.input
  {
    p' := p;
    var i := 0;
    while i < |line|
      invariant 0 <= i <= |line| && p'.Valid()
      invariant Contents(p'.output) == Contents(p.output) + line[..i]
      invariant i > 0 ==> p'.udre
      invariant p'.input == p.input
    {
      OutputFullMeansCount(p');
      p' := Write(p', line[i]);
      assert line[..i + 1] == line[..i] + [line[i]];
      i := i + 1;
    }
    assert line[..|line|] == line;
  }

  /** One pass of the main loop. Waiting for room in the transmit buffer is a precondition:
      the status line must fit. */
  method PollSerial(c: State, p: Port) returns (c': State, p': Port)
    requires c.Valid() && p.Valid()
    requires c.sendStatus ==> Count(p.output) + 8 < Size
    ensures c'.Valid() && p'.Valid()
    ensures c' == HandleBytes(c, Contents(p.input)).(sendStatus := false)
    ensures Contents(p'.input) == []
    ensures !c.sendStatus ==> p'.output == p.output
    ensures c.sendStatus ==>
      Contents(p'.output) == Contents(p.output) + LineOf(HandleBytes(c, Contents(p.input))) && p'.udre
  {
    c', p' := HandleInput(c, p);
    if c'.sendStatus {
      p' := SendLine(p', LineOf(c'));
    }
    c' := c'.(sendStatus := false);
  }
}

=== FILE: ring.dfy ===
/**
  The 256-slot circular buffers of shutter-controller/serial.c. Each buffer
  is an array of bytes with an 8-bit read index and an 8-bit write index;
  both indices wrap modulo 256, and the buffer holds the bytes from the read
  index up to (not including) the write index.
*/
module RingBuffer {
  import opened Common

  const Size: nat := 256

  datatype Ring = Ring(slots: seq<byte>, read: byte, write: byte) {
    predicate Valid() {
      |slots| == Size
    }
  }

  /** Number of bytes held: `(uint8_t)(write - read)`. */
  function Count(r: Ring): (n: nat)
    ensures n < Size
    ensures n == 0 <==> r.write == r.read
  {
    (r.write - r.read) % 256
  }

  /** The held bytes, oldest first. */
  function Contents(r: Ring): (c: seq<byte>)
    requires r.Valid()
    ensures |c| == Count(r)
  {
    seq(Count(r), i requires 0 <= i < Count(r) => r.slots[(r.read + i) % 256])
  }

  /** The write index sits `Count` places after the read index. */
  lemma WriteAfterRead(r: Ring)
    ensures r.write == (r.read + Count(r)) % 256
  {
    if r.write < r.read {
      assert Count(r) == r.write - r.read + 256;
    }
  }

  /** Stores `b` at the write index and advances it, whatever the buffer holds. */
  function Push(r: Ring, b: byte): (r': Ring)
    requires r.Valid()
    ensures r'.Valid()
    ensures r'.read == r.read && r'.write == (r.write + 1) % 256
    ensures Count(r) < Size - 1 ==> Contents(r') == Contents(r) + [b]
    ensures Count(r) == Size - 1 ==> Count(r') == 0
  {
    var r' := Ring(r.slots[r.write := b], r.read, (r.write + 1) % 256);
    StoreContents(r, b, r');
    r'
  }

  lemma StoreContents(r: Ring, b: byte, r': Ring)
    requires r.Valid() && r' == Ring(r.slots[r.write := b], r.read, (r.write + 1) % 256)
    ensures Count(r) < Size - 1 ==> Contents(r') == Contents(r) + [b]
    ensures Count(r) == Size - 1 ==> Count(r') == 0
  {
    var n := Count(r);
    WriteAfterRead(r);
    CountAfterStore(r, r');
    if n < Size - 1 {
      var a, c := Contents(r'), Contents(r) + [b];
      assert |a| == |c|;
      forall i | 0 <= i < |a|
        ensures a[i] == c[i]
      {
        if i < n {
          DistinctSlots(r.read, i, n);
        }
      }
    }
  }

  lemma CountAfterStore(r: Ring, r': Ring)
    requires r'.read == r.read && r'.write == (r.write + 1) % 256
    ensures Count(r) < Size - 1 ==> Count(r') == Count(r) + 1
    ensures Count(r) == Size - 1 ==> Count(r') == 0
  {
    if r.write == 255 {
      assert r'.write == 0;
    } else if r.write < r.read {
      assert Count(r) == r.write - r.read + 256;
    }
  }

  /** Distinct offsets below 256 from the same index name distinct slots. */
  lemma DistinctSlots(a: byte, i: nat, n: nat)
    requires i < n < 256
    ensures (a + i) % 256 != (a + n) % 256
  {
  }

  /** Takes the byte at the read index and advances it. */
  function Pop(r: Ring): (res: (byte, Ring))
    requires r.Valid() && Count(r) > 0
    ensures res.1.Valid() && res.1.slots == r.slots && res.1.write == r.write
    ensures res.1.read == (r.read + 1) % 256
    ensures res.0 == Contents(r)[0]
    ensures Contents(res.1) == Contents(r)[1..]
  {
    var r' := Ring(r.slots, (r.read + 1) % 256, r.write);
    TakeContents(r, r');
    (r.slots[r.read], r')
  }

  lemma TakeContents(r: Ring, r': Ring)
    requires r.Valid() && Count(r) > 0 && r' == Ring(r.slots, (r.read + 1) % 256, r.write)
    ensures r.slots[r.read] == Contents(r)[0]
    ensures Contents(r') == Contents(r)[1..]
  {
    CountAfterTake(r, r');
    var a, b := Contents(r'), Contents(r)[1..];
    assert |a| == |b|;
    forall i | 0 <= i < |a|
      ensures a[i] == b[i]
    {
      assert a[i] == r.slots[(r'.read + i) % 256];
      assert b[i] == r.slots[(r.read + (i + 1)) % 256];
      ModShift(r.read, i);
    }
    assert Contents(r)[0] == r.slots[(r.read + 0) % 256];
  }

  lemma CountAfterTake(r: Ring, r': Ring)
    requires Count(r) > 0 && r'.read == (r.read + 1) % 256 && r'.write == r.write
    ensures Count(r') == Count(r) - 1
  {
    if r.read == 255 {
      assert r'.read == 0;
    } else if r.write < r.read {
      assert Count(r) == r.write - r.read + 256;
    }
  }

  lemma ModShift(a: byte, i: nat)
    ensures ((a + 1) % 256 + i) % 256 == (a + i + 1) % 256
  {
    if a == 255 {
      assert (a + 1) % 256 == 0;
      assert a + i + 1 == i + 256;
    }
  }

  /** Pushes each byte of `bs` in turn. */
  function PushAll(r: Ring, bs: seq<byte>): (r': Ring)
    requires r.Valid()
    ensures r'.Valid()
    decreases |bs|
  {
    if |bs| == 0 then r else PushAll(Push(r, bs[0]), bs[1..])
  }

  /** Pushing bytes that fit appends them in order. */
  lemma {:induction false} PushAllAppends(r: Ring, bs: seq<byte>)
    requires r.Valid() && Count(r) + |bs| < Size
    ensures Contents(PushAll(r, bs)) == Contents(r) + bs
    decreases |bs|
  {
    if |bs| > 0 {
      var r1 := Push(r, bs[0]);
      PushAllAppends(r1, bs[1..]);
      assert Contents(r) + [bs[0]] + bs[1..] == Contents(r) + bs;
    }
  }

  /** Pops `n` bytes, returning them oldest first. */
  function PopN(r: Ring, n: nat): (res: (seq<byte>, Ring))
    requires r.Valid() && n <= Count(r)
    ensures res.1.Valid()
    ensures res.0 == Contents(r)[..n]
    ensures Contents(res.1) == Contents(r)[n..]
    decreases n
  {
    if n == 0 then ([], r)
    else
      var (b, r1) := Pop(r);
      var (rest, r2) := PopN(r1, n - 1);
      assert Contents(r)[..n] == [b] + Contents(r1)[..n - 1];
      ([b] + rest, r2)
  }

  /** FIFO: whatever is pushed into a buffer that can hold it comes back out in the same order. */
  lemma FifoRoundTrip(r: Ring, bs: seq<byte>)
    requires r.Valid() && Count(r) == 0 && |bs| < Size
    ensures Count(PushAll(r, bs)) == |bs|
    ensures PopN(PushAll(r, bs), |bs|).0 == bs
    ensures Count(PopN(PushAll(r, bs), |bs|).1) == 0
  {
    PushAllAppends(r, bs);
  }

  /** With no overflow guard, 256 pushes into an empty buffer leave it looking empty. */
  lemma OverflowLooksEmpty(r: Ring, bs: seq<byte>)
    requires r.Valid() && Count(r) == 0 && |bs| == Size
    ensures Count(PushAll(r, bs)) == 0
  {
    var front := bs[..Size - 1];
    PushAllSplit(r, front, [bs[Size - 1]]);
    assert front + [bs[Size - 1]] == bs;
    PushAllAppends(r, front);
  }

  lemma {:induction false} PushAllSplit(r: Ring, a: seq<byte>, b: seq<byte>)
    requires r.Valid()
    ensures PushAll(r, a + b) == PushAll(PushAll(r, a), b)
    decreases |a|
  {
    if |a| > 0 {
      assert (a + b)[0] == a[0] && (a + b)[1..] == a[1..] + b;
      PushAllSplit(Push(r, a[0]), a[1..], b);
    } else {
      assert a + b == b;
    }
  }
}

=== FILE: serial.dfy ===
/**
  The interrupt-driven serial port of shutter-controller/serial.c: a receive
  buffer filled by the RX interrupt and drained by `serial_read`, a transmit
  buffer filled by `serial_write` and drained by the data-register-empty
  (UDRE) interrupt, and the TX/RX activity LEDs pulsed by a 100 Hz timer.
  Each function below is one atomic step: an interrupt handler runs to
  completion, and the busy-wait loops of `serial_read` and `serial_write`
  become preconditions.
*/
module Serial {
  import opened Common
  import opened RingBuffer

  /** Number of timer ticks an activity LED stays lit after a byte moves. */
  const LedPulse: byte := 10

  /** An activity LED and its countdown (`tx_led_pulse` / `rx_led_pulse`). */
  datatype Led = Led(pulse: byte, lit: bool)

  /** `udre` is the UDRIE1 bit: whether the transmit interrupt is enabled. */
  datatype Port = Port(input: Ring, output: Ring, udre: bool, tx: Led, rx: Led) {
    predicate Valid() {
      input.Valid() && output.Valid()
    }
  }

  /** `serial_initialize`: resets indices and LED counters; the buffers keep their old bytes,
      and writing UCSR1B leaves the transmit interrupt disabled. */
  function Initialize(p: Port): (p': Port)
    requires p.Valid()
    ensures p'.Valid()
    ensures Contents(p'.input) == [] && Contents(p'.output) == []
    ensures p'.input.read == 0 && p'.input.write == 0 && p'.output.read == 0 && p'.output.write == 0
    ensures !p'.udre && !p'.tx.lit && !p'.rx.lit && p'.tx.pulse == 0 && p'.rx.pulse == 0
  {
    Port(Ring(p.input.slots, 0, 0), Ring(p.output.slots, 0, 0), false, Led(0, false), Led(0, false))
  }

  /** `serial_can_read`. */
  function CanRead(p: Port): (r: bool)
    requires p.Valid()
    ensures r <==> |Contents(p.input)| > 0
  {
    p.input.write != p.input.read
  }

  /** `serial_read` once its wait for data is over: the oldest received byte. */
  function Read(p: Port): (res: (byte, Port))
    requires p.Valid() && CanRead(p)
    ensures res.1.Valid()
    ensures res.0 == Contents(p.input)[0]
    ensures Contents(res.1.input) == Contents(p.input)[1..]
    ensures res.1.input.read == (p.input.read + 1) % 256
    ensures res.1.output == p.output && res.1.udre == p.udre && res.1.tx == p.tx && res.1.rx == p.rx
  {
    var (b, input') := Pop(p.input);
    (b, p.(input := input'))
  }

  /** The condition `serial_write` waits on: the write index is one behind the read index. */
  predicate OutputFull(p: Port) {
    p.output.write == ToByte(p.output.read - 1)
  }

  /** A full transmit buffer holds 255 bytes: one slot always stays free. */
  lemma OutputFullMeansCount(p: Port)
    ensures OutputFull(p) <==> Count(p.output) == Size - 1
  {
    WriteAfterRead(p.output);
  }

  /** `serial_write` once its wait for space is over: appends `b` and enables the transmit interrupt. */
  function Write(p: Port, b: byte): (p': Port)
    requires p.Valid() && !OutputFull(p)
    ensures p'.Valid()
    ensures Contents(p'.output) == Contents(p.output) + [b]
    ensures Count(p'.output) <= Size - 1
    ensures p'.udre
    ensures p'.input == p.input && p'.tx == p.tx && p'.rx == p.rx
  {
    OutputFullMeansCount(p);
    p.(output := Push(p.output, b), udre := true)
  }

  /** `ISR(USART1_UDRE_vect)`: sends the oldest pending byte, if any, and disables
      itself once nothing is left. */
  function TransmitReady(p: Port): (res: (Option<byte>, Port))
    requires p.Valid()
    ensures res.1.Valid()
    ensures |Contents(p.output)| > 0 ==> res.0 == Some(Contents(p.output)[0]) && Contents(res.1.output) == Contents(p.output)[1..]
    ensures |Contents(p.output)| == 0 ==> res.0 == None && res.1.output == p.output
    ensures |Contents(res.1.output)| == 0 ==> !res.1.udre
    ensures |Contents(res.1.output)| > 0 ==> res.1.udre == p.udre
    ensures res.0.Some? ==> res.1.tx == Led(LedPulse, true)
    ensures res.0.None? ==> res.1.tx == p.tx
    ensures res.1.input == p.input && res.1.rx == p.rx
  {
    var (sent, p1) :=
      if p.output.write != p.output.read then
        var (b, output') := Pop(p.output);
        (Some(b), p.(output := output', tx := Led(LedPulse, true)))
      else (None, p);
    (sent, if p1.output.write == p1.output.read then p1.(udre := false) else p1)
  }

  /** `ISR(USART1_RX_vect)`: stores the received byte with no check for room. */
  function Receive(p: Port, b: byte): (p': Port)
    requires p.Valid()
    ensures p'.Valid()
    ensures Count(p.input) < Size - 1 ==> Contents(p'.input) == Contents(p.input) + [b]
    ensures Count(p.input) == Size - 1 ==> Contents(p'.input) == []
    ensures p'.rx == Led(LedPulse, true)
    ensures p'.output == p.output && p'.udre == p.udre && p'.tx == p.tx
  {
    p.(input := Push(p.input, b), rx := Led(LedPulse, true))
  }

  /** One LED's share of `ISR(TIMER3_COMPA_vect)`. */
  function LedTick(l: Led): (l': Led)
    ensures l.pulse > 0 ==> l'.pulse == l.pulse - 1
    ensures l.pulse == 0 ==> l'.pulse == 0
    ensures l'.pulse == 0 ==> !l'.lit
    ensures l'.pulse > 0 ==> l'.lit == l.lit
  {
    var pulse := if l.pulse > 0 then l.pulse - 1 else l.pulse;
    var lit := if l.pulse > 0 && pulse == 0 then false else l.lit;
    Led(pulse, if pulse == 0 then false else lit)
  }

  /** `ISR(TIMER3_COMPA_vect)`: ticks both LEDs. */
  function TimerTick(p: Port): (p': Port)
    ensures p'.tx == LedTick(p.tx) && p'.rx == LedTick(p.rx)
    ensures p'.input == p.input && p'.output == p.output && p'.udre == p.udre
  {
    p.(tx := LedTick(p.tx), rx := LedTick(p.rx))
  }

  function LedTicks(l: Led, n: nat): Led
    decreases n
  {
    if n == 0 then l else LedTicks(LedTick(l), n - 1)
  }

  /** A lit LED with countdown `p` stays lit for exactly `p - 1` more ticks and is dark from tick `p` on. */
  lemma {:induction false} PulseLength(l: Led, n: nat)
    requires l.lit && l.pulse > 0
    ensures LedTicks(l, n).lit <==> n < l.pulse
    ensures LedTicks(l, n).pulse == if n < l.pulse then l.pulse - n else 0
    decreases n
  {
    if n > 0 {
      var l1 := LedTick(l);
      if l1.pulse > 0 {
        PulseLength(l1, n - 1);
      } else {
        DarkStaysDark(l1, n - 1);
      }
    }
  }

  lemma {:induction false} DarkStaysDark(l: Led, n: nat)
    requires l.pulse == 0 && !l.lit
    ensures LedTicks(l, n) == l
    decreases n
  {
    if n > 0 {
      DarkStaysDark(LedTick(l), n - 1);
    }
  }

  /** Runs the LED timer interrupt `n` times. */
  function TimerTicks(p: Port, n: nat): Port
    decreases n
  {
    if n == 0 then p else TimerTicks(TimerTick(p), n - 1)
  }

  /** `n` timer interrupts count each LED down on its own and leave both rings alone. */
  lemma {:induction false} TimerTicksMoveLeds(p: Port, n: nat)
    ensures TimerTicks(p, n).tx == LedTicks(p.tx, n) && TimerTicks(p, n).rx == LedTicks(p.rx, n)
    ensures TimerTicks(p, n).input == p.input && TimerTicks(p, n).output == p.output
    ensures TimerTicks(p, n).udre == p.udre
    decreases n
  {
    if n > 0 {
      TimerTicksMoveLeds(TimerTick(p), n - 1);
    }
  }

  /** A received byte lights the RX LED for exactly `LedPulse` timer ticks. */
  lemma ReceiveFlashesRx(p: Port, b: byte, n: nat)
    requires p.Valid()
    ensures TimerTicks(Receive(p, b), n).rx.lit <==> n < LedPulse as int
  {
    TimerTicksMoveLeds(Receive(p, b), n);
    PulseLength(Led(LedPulse, true), n);
  }

  /** A transmitted byte lights the TX LED for exactly `LedPulse` timer ticks. */
  lemma TransmitFlashesTx(p: Port, n: nat)
    requires p.Valid() && |Contents(p.output)| > 0
    ensures TimerTicks(TransmitReady(p).1, n).tx.lit <==> n < LedPulse as int
  {
    TimerTicksMoveLeds(TransmitReady(p).1, n);
    PulseLength(Led(LedPulse, true), n);
  }

  /** Runs the transmit interrupt `n` times, collecting what goes out on the wire. */
  function TransmitN(p: Port, n: nat): (res: (seq<byte>, Port))
    requires p.Valid()
    ensures res.1.Valid()
    decreases n
  {
    if n == 0 then ([], p)
    else
      var (sent, p1) := TransmitReady(p);
      var (rest, p2) := TransmitN(p1, n - 1);
      (if sent.Some? then [sent.value] + rest else rest, p2)
  }

  /** The transmit interrupt sends pending bytes in the order they were written and stops when done. */
  lemma {:induction false} TransmitInOrder(p: Port, n: nat)
    requires p.Valid() && n <= |Contents(p.output)| && (n > 0 ==> p.udre)
    ensures TransmitN(p, n).0 == Contents(p.output)[..n]
    ensures Contents(TransmitN(p, n).1.output) == Contents(p.output)[n..]
    ensures n > 0 ==> (TransmitN(p, n).1.udre <==> n < |Contents(p.output)|)
    decreases n
  {
    if n > 0 {
      var c := Contents(p.output);
      var (sent, p1) := TransmitReady(p);
      assert sent == Some(c[0]) && Contents(p1.output) == c[1..];
      TransmitInOrder(p1, n - 1);
      var (rest, p2) := TransmitN(p1, n - 1);
      assert TransmitN(p, n) == ([c[0]] + rest, p2);
      SliceAfterHead(c, n);
      if n == 1 {
        assert p2 == p1;
      }
    }
  }

  lemma SliceAfterHead<T>(c: seq<T>, n: nat)
    requires 0 < n <= |c|
    ensures c[..n] == [c[0]] + c[1..][..n - 1]
    ensures c[1..][n - 1..] == c[n..]
  {
  }

  /** Writes each byte of `bs` in turn. */
  function WriteAll(p: Port, bs: seq<byte>): (p': Port)
    requires p.Valid() && Count(p.output) + |bs| < Size
    ensures p'.Valid()
    ensures Contents(p'.output) == Contents(p.output) + bs
    ensures |bs| > 0 ==> p'.udre
    ensures p'.input == p.input
    decreases |bs|
  {
    if |bs| == 0 then p
    else
      OutputFullMeansCount(p);
      var p1 := Write(p, bs[0]);
      assert Contents(p.output) + [bs[0]] + bs[1..] == Contents(p.output) + bs;
      WriteAll(p1, bs[1..])
  }

  /** Bytes written to an idle port go out on the wire unchanged, after which transmission stops. */
  lemma WriteThenTransmit(p: Port, bs: seq<byte>)
    requires p.Valid() && Count(p.output) == 0 && 0 < |bs| < Size
    ensures TransmitN(WriteAll(p, bs), |bs|).0 == bs
    ensures !TransmitN(WriteAll(p, bs), |bs|).1.udre
  {
    var q := WriteAll(p, bs);
    TransmitInOrder(q, |bs|);
  }
}

=== FILE: shutter.dfy ===
/**
  The shutter microcontroller of shutter-controller/main.c: the state shared
  between the main loop and the 10 Hz timer interrupt, the command-byte
  handler of `poll_serial`, and the timer interrupt itself (heartbeat
  countdown, limit sampling, button debounce, motor direction machine).

  Each `cli()`/`sei()` section and each interrupt is one atomic step. The
  limit switches and buttons are read through active-low inputs; here an
  `Inputs` value says directly whether each one is active.
*/
module ShutterController {
  import opened Common

  /** Motor run time for a host command, in 0.1 s ticks (`MOVE_STEPS`). */
  const MoveSteps: uint16 := 650
  /** Run time granted by one debounced button sample. */
  const ButtonSteps: uint16 := 2
  /** Ticks between status reports, and between heartbeat decrements. */
  const StatusPeriod: byte := 10
  /** Largest heartbeat a host byte may arm. */
  const MaxHeartbeat: byte := 240

  /** `DIR_STOPPED`, `DIR_OPEN`, `DIR_CLOSE`. */
  datatype Direction = Stopped | Open | Close {
    function Code(): (c: byte)
      ensures c < 3
      ensures (c == 0) == Stopped?
    {
      match this
      case Stopped => 0
      case Open => 1
      case Close => 2
    }

    /** The direction that reverses this one. */
    function Opposite(): Direction {
      match this
      case Stopped => Stopped
      case Open => Close
      case Close => Open
    }
  }

  /** The bits of `current_flags`: sampled limits, whether the motor runs, and the
      button samples from the previous tick. */
  datatype Flags = Flags(limitOpen: bool, limitClosed: bool, moving: bool, buttonOpen: bool, buttonClose: bool)

  datatype State = State(
    requested: Direction,
    current: Direction,
    flags: Flags,
    moveCounter: uint16,
    statusCounter: byte,
    sendStatus: bool,
    heartbeatRemaining: byte,
    heartbeatTriggered: bool)
  {
    /** What every reachable state satisfies. */
    predicate Valid() {
      && statusCounter < StatusPeriod
      && heartbeatRemaining <= MaxHeartbeat
      && moveCounter <= MoveSteps
      && (flags.moving <==> current != Stopped)
      && (heartbeatTriggered ==> heartbeatRemaining == 0)
    }

    /** The motor relays are energised exactly while a direction is being driven. */
    predicate DriveEnabled() {
      current != Stopped
    }
  }

  /** The values of the globals at reset. */
  const PowerOn: State := State(Stopped, Stopped, Flags(false, false, false, false, false), 0, 0, false, 0, false)

  lemma PowerOnValid()
    ensures PowerOn.Valid() && !PowerOn.DriveEnabled()
  {
  }

  // ---------------------------------------------------------------------------
  // Command bytes from the host

  /** What a received byte asks for. */
  datatype Command = OpenCmd | CloseCmd | StopCmd | Disable | Arm(seconds: byte) | Reserved(b: byte)

  /** The `switch` of `poll_serial`: 0xF1, 0xF2, 0xFF and 0 are commands, 1..240 arm the
      heartbeat, and the remaining bytes 0xF3..0xFE are ignored. */
  function Decode(b: byte): (c: Command)
    ensures c.Arm? ==> 0 < c.seconds <= MaxHeartbeat
    ensures c.Reserved? ==> c.b == b && MaxHeartbeat < b < 0xFF && b != 0xF1 && b != 0xF2
  {
    if b == 0xF1 then OpenCmd
    else if b == 0xF2 then CloseCmd
    else if b == 0xFF then StopCmd
    else if b == 0 then Disable
    else if b <= MaxHeartbeat then Arm(b)
    else Reserved(b)
  }

  /** The byte a host sends for each command. */
  function Encode(c: Command): byte
    requires c.Arm? ==> 0 < c.seconds <= MaxHeartbeat
    requires c.Reserved? ==> MaxHeartbeat < c.b < 0xFF && c.b != 0xF1 && c.b != 0xF2
  {
    match c
    case OpenCmd => 0xF1
    case CloseCmd => 0xF2
    case StopCmd => 0xFF
    case Disable => 0
    case Arm(n) => n
    case Reserved(b) => b
  }

  /** Every byte decodes to exactly one command, which encodes back to that byte. */
  lemma DecodeEncode(b: byte, c: Command)
    ensures Encode(Decode(b)) == b
    ensures (c.Arm? ==> 0 < c.seconds <= MaxHeartbeat) && (c.Reserved? ==> MaxHeartbeat < c.b < 0xFF && c.b != 0xF1 && c.b != 0xF2)
      ==> Decode(Encode(c)) == c
  {
  }

  /** One iteration of the receive loop in `poll_serial`. */
  function HandleByte(s: State, b: byte): (r: State)
    // the main loop never touches what the timer interrupt owns
    ensures r.current == s.current && r.flags == s.flags
    ensures r.statusCounter == s.statusCounter && r.sendStatus == s.sendStatus
    ensures s.Valid() ==> r.Valid()
    // once tripped, only a 0 byte has any effect
    ensures s.heartbeatTriggered && b != 0 ==> r == s
    // 0 clears the trip and disarms, whatever came before
    ensures b == 0 ==> !r.heartbeatTriggered && r.heartbeatRemaining == 0 && r.requested == Stopped && r.moveCounter == s.moveCounter
    // open and close requests carry a full run time
    ensures !s.heartbeatTriggered && Decode(b) == OpenCmd ==> r == s.(requested := Open, moveCounter := MoveSteps)
    ensures !s.heartbeatTriggered && Decode(b) == CloseCmd ==> r == s.(requested := Close, moveCounter := MoveSteps)
    ensures !s.heartbeatTriggered && Decode(b) == StopCmd ==> r == s.(requested := Stopped)
    ensures !s.heartbeatTriggered && Decode(b).Arm? ==> r == s.(heartbeatRemaining := b)
    ensures Decode(b).Reserved? ==> r == s
    // the heartbeat is armed only by an arm byte and only while not tripped
    ensures r.heartbeatRemaining != s.heartbeatRemaining ==> b == 0 || (Decode(b).Arm? && !s.heartbeatTriggered)
  {
    if b == 0xF1 then
      if !s.heartbeatTriggered then s.(requested := Open, moveCounter := MoveSteps) else s
    else if b == 0xF2 then
      if !s.heartbeatTriggered then s.(requested := Close, moveCounter := MoveSteps) else s
    else if b == 0xFF then
      if !s.heartbeatTriggered then s.(requested := Stopped) else s
    else if b == 0 then
      s.(heartbeatTriggered := false, heartbeatRemaining := 0, requested := Stopped)
    else if !s.heartbeatTriggered && b <= MaxHeartbeat then
      s.(heartbeatRemaining := b)
    else s
  }

  /** Handles received bytes in arrival order. */
  function HandleBytes(s: State, bs: seq<byte>): (r: State)
    ensures r.current == s.current && r.flags == s.flags
    ensures r.statusCounter == s.statusCounter && r.sendStatus == s.sendStatus
    decreases |bs|
  {
    if |bs| == 0 then s else HandleBytes(HandleByte(s, bs[0]), bs[1..])
  }

  /** A tripped controller ignores every byte sequence without a 0 in it. */
  lemma {:induction false} TripIgnoresBytes(s: State, bs: seq<byte>)
    requires s.heartbeatTriggered
    requires forall i :: 0 <= i < |bs| ==> bs[i] != 0
    ensures HandleBytes(s, bs) == s
    decreases |bs|
  {
    if |bs| > 0 {
      TripIgnoresBytes(HandleByte(s, bs[0]), bs[1..]);
    }
  }

  lemma {:induction false} HandleBytesValid(s: State, bs: seq<byte>)
    requires s.Valid()
    ensures HandleBytes(s, bs).Valid()
    decreases |bs|
  {
    if |bs| > 0 {
      HandleBytesValid(HandleByte(s, bs[0]), bs[1..]);
    }
  }

  lemma {:induction false} HandleBytesAppend(s: State, bs: seq<byte>, b: byte)
    ensures HandleBytes(s, bs + [b]) == HandleByte(HandleBytes(s, bs), b)
    decreases |bs|
  {
    if |bs| == 0 {
      assert bs + [b] == [b];
    } else {
      assert (bs + [b])[1..] == bs[1..] + [b];
      HandleBytesAppend(HandleByte(s, bs[0]), bs[1..], b);
    }
  }

  // ---------------------------------------------------------------------------
  // The 10 Hz timer interrupt, step by step

  /** The level of each input during one tick. */
  datatype Inputs = Inputs(limitOpen: bool, limitClosed: bool, buttonOpen: bool, buttonClose: bool)

  /** Status cadence and heartbeat countdown: every tenth tick raises the status request
      and, if armed and not tripped, takes a second off the heartbeat; reaching zero trips
      it and requests a full-length close. */
  function HeartbeatStep(s: State): (r: State)
    requires s.Valid()
    ensures r.current == s.current && r.flags == s.flags
    ensures r.statusCounter == (s.statusCounter + 1) % StatusPeriod
    ensures r.sendStatus <==> s.sendStatus || s.statusCounter == StatusPeriod - 1
    ensures s.statusCounter != StatusPeriod - 1 || s.heartbeatTriggered || s.heartbeatRemaining == 0 ==>
      r.heartbeatRemaining == s.heartbeatRemaining && r.heartbeatTriggered == s.heartbeatTriggered
      && r.requested == s.requested && r.moveCounter == s.moveCounter
    ensures s.statusCounter == StatusPeriod - 1 && !s.heartbeatTriggered && s.heartbeatRemaining > 0 ==>
      r.heartbeatRemaining == s.heartbeatRemaining - 1
      && (r.heartbeatTriggered <==> s.heartbeatRemaining == 1)
      && (r.heartbeatTriggered ==> r.requested == Close && r.moveCounter == MoveSteps)
      && (!r.heartbeatTriggered ==> r.requested == s.requested && r.moveCounter == s.moveCounter)
  {
    var count := ToByte(s.statusCounter + 1);
    if count == StatusPeriod then
      var s1 := s.(sendStatus := true, statusCounter := 0);
      if !s1.heartbeatTriggered && s1.heartbeatRemaining != 0 then
        var left := s1.heartbeatRemaining - 1;
        if left == 0 then
          s1.(heartbeatRemaining := 0, heartbeatTriggered := true, requested := Close, moveCounter := MoveSteps)
        else
          s1.(heartbeatRemaining := left)
      else s1
    else
      s.(statusCounter := count)
  }

  /** Latches the limit switch levels into the flags. */
  function SampleLimits(s: State, i: Inputs): (r: State)
    ensures r.flags.limitOpen == i.limitOpen && r.flags.limitClosed == i.limitClosed
    ensures r == s.(flags := r.flags)
    ensures r.flags.moving == s.flags.moving && r.flags.buttonOpen == s.flags.buttonOpen && r.flags.buttonClose == s.flags.buttonClose
  {
    s.(flags := s.flags.(limitOpen := i.limitOpen, limitClosed := i.limitClosed))
  }

  /** Debounce of the open button: a press seen on this tick and the previous one, away
      from the open limit, requests a short open; a release after a press requests a stop. */
  function DebounceOpen(s: State, pressed: bool): (r: State)
    ensures r.flags.buttonOpen == pressed
    ensures r.current == s.current && r.statusCounter == s.statusCounter && r.sendStatus == s.sendStatus
    ensures r.heartbeatRemaining == s.heartbeatRemaining && r.heartbeatTriggered == s.heartbeatTriggered
    ensures r.flags == s.flags.(buttonOpen := pressed)
    ensures pressed && s.flags.buttonOpen && !s.flags.limitOpen ==> r.requested == Open && r.moveCounter == ButtonSteps
    ensures !(pressed && s.flags.buttonOpen && !s.flags.limitOpen) ==> r.moveCounter == s.moveCounter
    ensures !pressed && s.flags.buttonOpen ==> r.requested == Stopped
    ensures (pressed && !(s.flags.buttonOpen && !s.flags.limitOpen)) || (!pressed && !s.flags.buttonOpen) ==> r.requested == s.requested
  {
    if pressed then
      if s.flags.buttonOpen && !s.flags.limitOpen then s.(requested := Open, moveCounter := ButtonSteps)
      else s.(flags := s.flags.(buttonOpen := true))
    else
      var s1 := if s.flags.buttonOpen then s.(requested := Stopped) else s;
      s1.(flags := s1.flags.(buttonOpen := false))
  }

  /** Debounce of the close button, the mirror image of `DebounceOpen`. */
  function DebounceClose(s: State, pressed: bool): (r: State)
    ensures r.flags.buttonClose == pressed
    ensures r.current == s.current && r.statusCounter == s.statusCounter && r.sendStatus == s.sendStatus
    ensures r.heartbeatRemaining == s.heartbeatRemaining && r.heartbeatTriggered == s.heartbeatTriggered
    ensures r.flags == s.flags.(buttonClose := pressed)
    ensures pressed && s.flags.buttonClose && !s.flags.limitClosed ==> r.requested == Close && r.moveCounter == ButtonSteps
    ensures !(pressed && s.flags.buttonClose && !s.flags.limitClosed) ==> r.moveCounter == s.moveCounter
    ensures !pressed && s.flags.buttonClose ==> r.requested == Stopped
    ensures (pressed && !(s.flags.buttonClose && !s.flags.limitClosed)) || (!pressed && !s.flags.buttonClose) ==> r.requested == s.requested
  {
    if pressed then
      if s.flags.buttonClose && !s.flags.limitClosed then s.(requested := Close, moveCounter := ButtonSteps)
      else s.(flags := s.flags.(buttonClose := true))
    else
      var s1 := if s.flags.buttonClose then s.(requested := Stopped) else s;
      s1.(flags := s1.flags.(buttonClose := false))
  }

  /** Whether the motor runs into the limit of its own direction. */
  predicate AtLimit(s: State) {
    (s.current == Open && s.flags.limitOpen) || (s.current == Close && s.flags.limitClosed)
  }

  /** The stop check. As main.c writes it (`guardReversal == false`), reaching the limit of
      the running direction stops everything and discards the request, even a request to
      reverse. With `guardReversal`, a pending reversal is kept: the limit then does not
      clear it, and the direction step stops the motor for one tick before reversing. */
  function MotorStop(s: State, guardReversal: bool): (r: State)
    ensures r.flags == s.flags && r.statusCounter == s.statusCounter && r.sendStatus == s.sendStatus
    ensures r.heartbeatRemaining == s.heartbeatRemaining && r.heartbeatTriggered == s.heartbeatTriggered
    ensures var limitStop := AtLimit(s) && !(guardReversal && s.requested == s.current.Opposite());
      var stops := limitStop || s.moveCounter == 1;
      && (stops ==> r.current == Stopped && r.requested == Stopped && r.moveCounter == 0)
      && (!stops ==> r.current == s.current && r.requested == s.requested
                     && r.moveCounter == (if s.moveCounter > 0 then s.moveCounter - 1 else 0))
  {
    var limitStop := AtLimit(s) && !(guardReversal && s.requested == s.current.Opposite());
    if limitStop || (s.moveCounter > 0 && s.moveCounter - 1 == 0) then
      s.(current := Stopped, requested := Stopped, moveCounter := 0)
    else if s.moveCounter > 0 then
      s.(moveCounter := s.moveCounter - 1)
    else s
  }

  /** The direction step: a running motor asked for anything else stops first; a stopped
      motor starts in the requested direction. The moving flag then follows the motor. */
  function Drive(s: State): (r: State)
    ensures r.requested == s.requested && r.moveCounter == s.moveCounter
    ensures r.statusCounter == s.statusCounter && r.sendStatus == s.sendStatus
    ensures r.heartbeatRemaining == s.heartbeatRemaining && r.heartbeatTriggered == s.heartbeatTriggered
    ensures r.flags == s.flags.(moving := r.current != Stopped)
    ensures s.current != Stopped ==> r.current == (if s.requested == s.current then s.current else Stopped)
    ensures s.current == Stopped ==> r.current == s.requested
  {
    var s1 :=
      if s.current != Stopped && s.requested != s.current then s.(current := Stopped)
      else if s.requested == Open then s.(current := Open)
      else if s.requested == Close then s.(current := Close)
      else s;
    s1.(flags := s1.flags.(moving := s1.current != Stopped))
  }

  /** One run of `ISR(TIMER1_COMPA_vect)`, with the stop check chosen by `guardReversal`. */
  function Step(s: State, i: Inputs, guardReversal: bool): (r: State)
    requires s.Valid()
  {
    var s1 := HeartbeatStep(s);
    var s2 := SampleLimits(s1, i);
    var s3 := DebounceOpen(s2, i.buttonOpen);
    var s4 := DebounceClose(s3, i.buttonClose);
    var s5 := MotorStop(s4, guardReversal);
    Drive(s5)
  }

  /** The timer interrupt exactly as main.c writes it. */
  function TickAsWritten(s: State, i: Inputs): (r: State)
    requires s.Valid()
    ensures r.Valid()
    ensures r.flags.moving <==> r.current != Stopped
    ensures s.current != Stopped && r.current != Stopped ==> r.current == s.current
  {
    StepProperties(s, i, false);
    Step(s, i, false)
  }

  /** The timer interrupt with the reversal guard in the stop check (see `MotorStop`). */
  function Tick(s: State, i: Inputs): (r: State)
    requires s.Valid()
    ensures r.Valid()
    ensures r.flags.moving <==> r.current != Stopped
    ensures s.current != Stopped && r.current != Stopped ==> r.current == s.current
  {
    StepProperties(s, i, true);
    Step(s, i, true)
  }

  /** Invariants of one tick, for either stop check: validity is kept, the moving flag
      matches the motor, and the motor never goes straight from one direction to the other. */
  lemma StepProperties(s: State, i: Inputs, guardReversal: bool)
    requires s.Valid()
    ensures Step(s, i, guardReversal).Valid()
    ensures Step(s, i, guardReversal).flags.moving <==> Step(s, i, guardReversal).current != Stopped
    ensures s.current != Stopped && Step(s, i, guardReversal).current != Stopped ==>
      Step(s, i, guardReversal).current == s.current
  {
  }

  /** The two stop checks differ only when the motor reaches a limit with the reverse
      direction requested. */
  lemma StopChecksAgreeWithoutReversal(s: State, guardReversal: bool)
    requires !(AtLimit(s) && s.requested == s.current.Opposite())
    ensures MotorStop(s, guardReversal) == MotorStop(s, false)
  {
  }

  /** Runs the timer interrupt once per input, oldest first. */
  function Ticks(s: State, ins: seq<Inputs>): (r: State)
    requires s.Valid()
    ensures r.Valid()
    decreases |ins|
  {
    if |ins| == 0 then s else Tick(Ticks(s, ins[..|ins| - 1]), ins[|ins| - 1])
  }

  /** The same, with the interrupt as written. */
  function TicksAsWritten(s: State, ins: seq<Inputs>): (r: State)
    requires s.Valid()
    ensures r.Valid()
    decreases |ins|
  {
    if |ins| == 0 then s else TickAsWritten(TicksAsWritten(s, ins[..|ins| - 1]), ins[|ins| - 1])
  }
}

=== FILE: status_line.dfy ===
/**
  The status report of `poll_serial` in shutter-controller/main.c: a state
  code and a heartbeat byte, printed with `"%02d,%03d\r\n"` into an 8-byte
  line. `Parse` is a reference reader of such lines, the inverse of `Format`.
  None of the sources modelled here parses the line: shutter.py only echoes it,
  and the dome daemon that reads it is not part of this model.
*/
module StatusLine {
  import opened Common
  import opened ShutterController

  /** The state code and heartbeat byte of a report. The state code is the running
      direction (1 opening, 2 closing) while the motor runs, otherwise 3 at the open
      limit, otherwise 4 at the closed limit, otherwise 0; the heartbeat byte is 0xFF
      once tripped, otherwise the seconds left (0 when disarmed). */
  function Report(s: State): (r: (byte, byte))
    requires s.Valid()
    ensures r.1 == 0xFF <==> s.heartbeatTriggered
    ensures !s.heartbeatTriggered ==> r.1 == s.heartbeatRemaining
    ensures r.0 <= 4
    ensures (r.0 == 1 || r.0 == 2) <==> s.flags.moving
    ensures r.0 == 1 <==> s.current == Open
    ensures r.0 == 2 <==> s.current == Close
    ensures r.0 == 3 <==> !s.flags.moving && s.flags.limitOpen
    ensures r.0 == 4 <==> !s.flags.moving && !s.flags.limitOpen && s.flags.limitClosed
    ensures r.0 == 0 <==> !s.flags.moving && !s.flags.limitOpen && !s.flags.limitClosed
  {
    var heartbeat: byte := if s.heartbeatTriggered then 0xFF else s.heartbeatRemaining;
    var state: byte :=
      if s.flags.moving then s.current.Code()
      else if s.flags.limitOpen then Open.Code() + 2
      else if s.flags.limitClosed then Close.Code() + 2
      else Stopped.Code();
    (state, heartbeat)
  }

  const Comma: byte := 0x2C
  const CarriageReturn: byte := 0x0D
  const LineFeed: byte := 0x0A

  /** The byte is one of the ASCII digits '0'..'9'. */
  predicate IsAsciiDigit(b: byte) {
    0x30 <= b <= 0x39
  }

  function AsciiDigit(d: nat): (b: byte)
    requires d < 10
    ensures IsAsciiDigit(b)
  {
    0x30 + d
  }

  function AsciiDigitValue(b: byte): (d: nat)
    requires IsAsciiDigit(b)
    ensures d < 10 && AsciiDigit(d) == b
  {
    b - 0x30
  }

  /** `"%02d,%03d\r\n"` for values that fit the field widths. */
  function Format(state: nat, heartbeat: nat): (line: seq<byte>)
    requires state < 100 && heartbeat < 1000
    ensures |line| == 8
    ensures line[2] == Comma && line[6] == CarriageReturn && line[7] == LineFeed
  {
    [AsciiDigit(state / 10), AsciiDigit(state % 10), Comma,
     AsciiDigit(heartbeat / 100), AsciiDigit(heartbeat / 10 % 10), AsciiDigit(heartbeat % 10),
     CarriageReturn, LineFeed]
  }

  /** Reference reader of a status line: two digits, a comma, three digits, CR LF. */
  function Parse(line: seq<byte>): Option<(nat, nat)> {
    if |line| == 8 && IsAsciiDigit(line[0]) && IsAsciiDigit(line[1]) && line[2] == Comma
       && IsAsciiDigit(line[3]) && IsAsciiDigit(line[4]) && IsAsciiDigit(line[5])
       && line[6] == CarriageReturn && line[7] == LineFeed
    then Some((AsciiDigitValue(line[0]) * 10 + AsciiDigitValue(line[1]),
               AsciiDigitValue(line[3]) * 100 + AsciiDigitValue(line[4]) * 10 + AsciiDigitValue(line[5])))
    else None
  }

  /** `Parse` reads back exactly the values the firmware printed. */
  lemma ParseFormat(state: nat, heartbeat: nat)
    requires state < 100 && heartbeat < 1000
    ensures Parse(Format(state, heartbeat)) == Some((state, heartbeat))
  {
    var f := Format(state, heartbeat);
    assert AsciiDigitValue(f[0]) == state / 10 && AsciiDigitValue(f[1]) == state % 10;
    assert AsciiDigitValue(f[3]) == heartbeat / 100;
    assert AsciiDigitValue(f[4]) == heartbeat / 10 % 10 && AsciiDigitValue(f[5]) == heartbeat % 10;
    SplitTwo(state);
    SplitThree(heartbeat);
  }

  lemma SplitTwo(n: nat)
    ensures n / 10 * 10 + n % 10 == n
  {
  }

  lemma SplitThree(n: nat)
    requires n < 1000
    ensures n / 100 * 100 + n / 10 % 10 * 10 + n % 10 == n
  {
    assert n / 10 / 10 == n / 100;
  }

  /** Every line `Parse` accepts is the printout of the values it returns. */
  lemma FormatParse(line: seq<byte>)
    requires Parse(line).Some?
    ensures Parse(line).value.0 < 100 && Parse(line).value.1 < 1000
    ensures Format(Parse(line).value.0, Parse(line).value.1) == line
  {
    var d0, d1 := AsciiDigitValue(line[0]), AsciiDigitValue(line[1]);
    var d3, d4, d5 := AsciiDigitValue(line[3]), AsciiDigitValue(line[4]), AsciiDigitValue(line[5]);
    TwoDigits(d0, d1);
    ThreeDigits(d3, d4, d5);
    var f := Format(d0 * 10 + d1, d3 * 100 + d4 * 10 + d5);
    assert f[0] == line[0] && f[1] == line[1] && f[3] == line[3] && f[4] == line[4] && f[5] == line[5];
    assert f == line;
  }

  lemma TwoDigits(d0: nat, d1: nat)
    requires d0 < 10 && d1 < 10
    ensures (d0 * 10 + d1) / 10 == d0 && (d0 * 10 + d1) % 10 == d1
  {
  }

  lemma ThreeDigits(d3: nat, d4: nat, d5: nat)
    requires d3 < 10 && d4 < 10 && d5 < 10
    ensures var n := d3 * 100 + d4 * 10 + d5;
      n < 1000 && n / 100 == d3 && n / 10 % 10 == d4 && n % 10 == d5
  {
    var n := d3 * 100 + d4 * 10 + d5;
    assert n / 10 == d3 * 10 + d4;
  }

  /** The 8 bytes `poll_serial` sends for a state. */
  function LineOf(s: State): (line: seq<byte>)
    requires s.Valid()
    ensures |line| == 8
    ensures Parse(line) == Some((Report(s).0 as nat, Report(s).1 as nat))
  {
    ParseFormat(Report(s).0, Report(s).1);
    Format(Report(s).0, Report(s).1)
  }
}

=== FILE: watchdog.dfy ===
/**
  Properties of the timer interrupt of shutter-controller/main.c over one
  and many ticks: the status cadence, the heartbeat countdown and its sticky
  trip, the forced close, the stop conditions and the button debounce.

  It also records a defect of the interrupt as written: a heartbeat trip
  that falls on the tick at which an opening shutter reaches its open limit
  is lost, and the shutter stays open.
*/
module Watchdog {
  import opened Common
  import opened ShutterController

  /** Whether the heartbeat fires on the next tick. */
  predicate TripsNext(s: State) {
    s.statusCounter == StatusPeriod - 1 && !s.heartbeatTriggered && s.heartbeatRemaining == 1
  }

  predicate NoButtons(i: Inputs) {
    !i.buttonOpen && !i.buttonClose
  }

  predicate NoButtonMemory(s: State) {
    !s.flags.buttonOpen && !s.flags.buttonClose
  }

  // ---------------------------------------------------------------------------
  // One tick

  /** The heartbeat part of a tick: the counter moves on the tenth tick only, by one
      second; the trip, once set, is never cleared by a tick. */
  lemma TickHeartbeat(s: State, i: Inputs, guardReversal: bool)
    requires s.Valid()
    ensures var r := Step(s, i, guardReversal);
      && r.statusCounter == (s.statusCounter + 1) % StatusPeriod
      && (r.sendStatus <==> s.sendStatus || s.statusCounter == StatusPeriod - 1)
      && (s.heartbeatTriggered ==> r.heartbeatTriggered && r.heartbeatRemaining == 0)
      && (s.statusCounter != StatusPeriod - 1 ==>
            r.heartbeatRemaining == s.heartbeatRemaining && r.heartbeatTriggered == s.heartbeatTriggered)
      && (s.statusCounter == StatusPeriod - 1 && !s.heartbeatTriggered && s.heartbeatRemaining > 0 ==>
            r.heartbeatRemaining == s.heartbeatRemaining - 1 && (r.heartbeatTriggered <==> s.heartbeatRemaining == 1))
      && (s.heartbeatRemaining == 0 && !s.heartbeatTriggered ==> r.heartbeatRemaining == 0 && !r.heartbeatTriggered)
  {
  }

  /** The button flags remember the previous tick's button levels: this is the debounce memory. */
  lemma ButtonMemory(s: State, i: Inputs, guardReversal: bool)
    requires s.Valid()
    ensures Step(s, i, guardReversal).flags.buttonOpen == i.buttonOpen
    ensures Step(s, i, guardReversal).flags.buttonClose == i.buttonClose
    ensures Step(s, i, guardReversal).flags.limitOpen == i.limitOpen
    ensures Step(s, i, guardReversal).flags.limitClosed == i.limitClosed
  {
  }

  /** Holding the open button for two ticks, away from both limits and with the close button
      idle, requests an open of two ticks and starts the motor, after a stopped tick if it
      was closing. The request overrides anything the host or the heartbeat asked for. */
  lemma HeldOpenButtonOpens(s: State, i1: Inputs, i2: Inputs, guardReversal: bool)
    requires s.Valid()
    requires i1.buttonOpen && i2.buttonOpen && !i1.buttonClose && !i2.buttonClose
    requires !i2.limitOpen && !i2.limitClosed
    ensures var s1 := Step(s, i1, guardReversal);
      var r := Step(s1, i2, guardReversal);
      r.requested == Open && r.moveCounter == ButtonSteps - 1
      && r.current == (if s1.current == Close then Stopped else Open)
  {
    ButtonMemory(s, i1, guardReversal);
  }

  /** The mirror image for the close button. */
  lemma HeldCloseButtonCloses(s: State, i1: Inputs, i2: Inputs, guardReversal: bool)
    requires s.Valid()
    requires i1.buttonClose && i2.buttonClose && !i1.buttonOpen && !i2.buttonOpen
    requires !i2.limitOpen && !i2.limitClosed
    ensures var s1 := Step(s, i1, guardReversal);
      var r := Step(s1, i2, guardReversal);
      r.requested == Close && r.moveCounter == ButtonSteps - 1
      && r.current == (if s1.current == Open then Stopped else Close)
  {
    ButtonMemory(s, i1, guardReversal);
  }

  /** Stop conditions of a tick without button activity or a heartbeat trip: a motor that
      reaches the limit of its own direction, or whose run time runs out, stops and forgets
      its request; otherwise a request in the running direction keeps it running. */
  lemma TickStops(s: State, i: Inputs, guardReversal: bool)
    requires s.Valid() && NoButtons(i) && NoButtonMemory(s) && !TripsNext(s)
    requires s.current != Stopped && s.requested == s.current
    ensures var r := Step(s, i, guardReversal);
      var limit := (s.current == Open && i.limitOpen) || (s.current == Close && i.limitClosed);
      && (limit || s.moveCounter == 1 ==> r.current == Stopped && r.requested == Stopped && r.moveCounter == 0)
      && (!limit && s.moveCounter != 1 ==> r.current == s.current && r.requested == s.requested)
  {
  }

  // ---------------------------------------------------------------------------
  // Many ticks: status cadence and heartbeat countdown

  /** The part of the state that the status cadence and the heartbeat live in. */
  datatype Clock = Clock(counter: nat, remaining: nat, triggered: bool)

  function ClockOf(s: State): Clock {
    Clock(s.statusCounter, s.heartbeatRemaining, s.heartbeatTriggered)
  }

  /** The clock's own rule, independent of the inputs: on every tenth tick the counter
      wraps and an armed, untripped heartbeat loses a second, tripping at zero. */
  function ClockStep(c: Clock): Clock {
    if c.counter == 9 then
      if !c.triggered && c.remaining > 0 then Clock(0, c.remaining - 1, c.remaining == 1)
      else Clock(0, c.remaining, c.triggered)
    else Clock(c.counter + 1, c.remaining, c.triggered)
  }

  /** Every tick moves the clock by `ClockStep`, whatever the inputs, and raises the status
      request exactly when the counter wraps. */
  lemma TickClock(s: State, i: Inputs, guardReversal: bool)
    requires s.Valid()
    ensures ClockOf(Step(s, i, guardReversal)) == ClockStep(ClockOf(s))
    ensures Step(s, i, guardReversal).sendStatus <==> s.sendStatus || s.statusCounter == StatusPeriod - 1
  {
    TickHeartbeat(s, i, guardReversal);
  }

  function ClockRun(c: Clock, n: nat): Clock
    decreases n
  {
    if n == 0 then c else ClockStep(ClockRun(c, n - 1))
  }

  /** How many of `n` ticks raise the status request. */
  function Raised(c: Clock, n: nat): nat
    decreases n
  {
    if n == 0 then 0 else Raised(c, n - 1) + (if ClockRun(c, n - 1).counter == 9 then 1 else 0)
  }

  /** The clock after a run of ticks is the clock's own rule run as often. */
  lemma {:induction false} ClockOfTicks(s: State, ins: seq<Inputs>)
    requires s.Valid()
    ensures ClockOf(Ticks(s, ins)) == ClockRun(ClockOf(s), |ins|)
    decreases |ins|
  {
    if |ins| > 0 {
      ClockOfTicks(s, ins[..|ins| - 1]);
      TickClock(Ticks(s, ins[..|ins| - 1]), ins[|ins| - 1], true);
    }
  }

  /** The same for the interrupt as main.c writes it: the stop check plays no part in the clock. */
  lemma {:induction false} ClockOfTicksAsWritten(s: State, ins: seq<Inputs>)
    requires s.Valid()
    ensures ClockOf(TicksAsWritten(s, ins)) == ClockRun(ClockOf(s), |ins|)
    decreases |ins|
  {
    if |ins| > 0 {
      ClockOfTicksAsWritten(s, ins[..|ins| - 1]);
      TickClock(TicksAsWritten(s, ins[..|ins| - 1]), ins[|ins| - 1], false);
    }
  }

  /** A status line is requested once every ten ticks. */
  lemma {:induction false} ReportCadence(c: Clock, n: nat)
    requires c.counter < 10
    ensures ClockRun(c, n).counter == (c.counter + n) % 10
    ensures Raised(c, n) == (c.counter + n) / 10
    decreases n
  {
    if n > 0 {
      ReportCadence(c, n - 1);
      NextCount(c.counter + n - 1);
    }
  }

  /** An armed heartbeat counts down one second per ten ticks and stays untripped until
      its last second has gone. */
  lemma {:induction false} Countdown(c: Clock, n: nat)
    requires c.counter < 10 && !c.triggered && c.remaining > 0
    requires c.counter + n < 10 * c.remaining
    ensures var t := ClockRun(c, n);
      && !t.triggered
      && t.counter == (c.counter + n) % 10
      && t.remaining == c.remaining - (c.counter + n) / 10
    decreases n
  {
    if n > 0 {
      Countdown(c, n - 1);
      var x := c.counter + n - 1;
      NextCount(x);
      DivBound(x + 1, c.remaining);
    }
  }

  /** Counting on by one moves the last decimal digit round and carries at nine. */
  lemma NextCount(x: nat)
    ensures (x + 1) % 10 == (if x % 10 == 9 then 0 else x % 10 + 1)
    ensures (x + 1) / 10 == x / 10 + (if x % 10 == 9 then 1 else 0)
  {
  }

  lemma DivBound(x: nat, n: nat)
    requires x < 10 * n
    ensures x / 10 < n
  {
  }

  /** An armed clock with `10 remaining - counter` ticks to go is one tick from its trip,
      and trips on that tick. */
  lemma ClockTrips(c: Clock, n: nat)
    requires c.counter < 10 && !c.triggered && c.remaining > 0
    requires c.counter + n + 1 == 10 * c.remaining
    ensures var t := ClockRun(c, n);
      t.counter == 9 && !t.triggered && t.remaining == 1
    ensures ClockRun(c, n + 1).triggered
  {
    Countdown(c, n);
    var x := c.counter + n;
    assert x == 10 * c.remaining - 1;
    assert x % 10 == 9 && x / 10 == c.remaining - 1;
  }

  /** The guarantee the heartbeat exists for: once armed with `n` seconds, if no further byte
      arrives, the heartbeat trips on exactly the tick `10 n - statusCounter`, whatever the
      limits and buttons do. This is the corrected interrupt; `SilenceTripsAsWritten` is the
      same for main.c as written. */
  lemma SilenceTrips(s: State, ins: seq<Inputs>)
    requires s.Valid() && !s.heartbeatTriggered && s.heartbeatRemaining > 0
    requires s.statusCounter + |ins| == 10 * s.heartbeatRemaining
    ensures TripsNext(Ticks(s, ins[..|ins| - 1]))
    ensures Ticks(s, ins).heartbeatTriggered
  {
    ClockOfTicks(s, ins[..|ins| - 1]);
    ClockOfTicks(s, ins);
    ClockTrips(ClockOf(s), |ins| - 1);
  }

  lemma SilenceTripsAsWritten(s: State, ins: seq<Inputs>)
    requires s.Valid() && !s.heartbeatTriggered && s.heartbeatRemaining > 0
    requires s.statusCounter + |ins| == 10 * s.heartbeatRemaining
    ensures TripsNext(TicksAsWritten(s, ins[..|ins| - 1]))
    ensures TicksAsWritten(s, ins).heartbeatTriggered
  {
    ClockOfTicksAsWritten(s, ins[..|ins| - 1]);
    ClockOfTicksAsWritten(s, ins);
    ClockTrips(ClockOf(s), |ins| - 1);
  }

  /** No run of ticks clears a trip. */
  lemma {:induction false} TripIsSticky(c: Clock, n: nat)
    requires c.triggered
    ensures ClockRun(c, n).triggered
    decreases n
  {
    if n > 0 {
      TripIsSticky(c, n - 1);
    }
  }

  // ---------------------------------------------------------------------------
  // The forced close

  /** On the tick the heartbeat trips, with no button in use, the shutter is asked to close
      with a full run time (less the tick itself) and is not left opening; the only exception
      is a shutter already closing onto its closed limit, which stops there. */
  lemma TripTickCloses(s: State, i: Inputs)
    requires s.Valid() && TripsNext(s) && NoButtons(i) && NoButtonMemory(s)
    ensures var r := Tick(s, i);
      && r.heartbeatTriggered
      && ((r.requested == Close && r.moveCounter == MoveSteps - 1 && r.current != Open)
          || (s.current == Close && i.limitClosed && r.current == Stopped))
  {
  }

  /** After a trip, with no button in use, the close request survives every tick until the
      closed limit is reached or its run time ends, and the motor runs closed from the second
      tick on (from the first, unless it was opening). */
  lemma {:induction false} TripKeepsClosing(s: State, ins: seq<Inputs>)
    requires s.Valid() && s.heartbeatTriggered && s.requested == Close && NoButtonMemory(s)
    requires |ins| < s.moveCounter
    requires forall k :: 0 <= k < |ins| ==> NoButtons(ins[k]) && !ins[k].limitClosed
    ensures var r := Ticks(s, ins);
      && r.requested == Close && r.heartbeatTriggered && NoButtonMemory(r)
      && r.moveCounter == s.moveCounter - |ins|
      && (|ins| >= 2 || (|ins| == 1 && s.current != Open) ==> r.current == Close)
      && (|ins| == 1 && s.current == Open ==> r.current == Stopped)
    decreases |ins|
  {
    if |ins| > 0 {
      var before := ins[..|ins| - 1];
      TripKeepsClosing(s, before);
      var t := Ticks(s, before);
      TickHeartbeat(t, ins[|ins| - 1], true);
      if |before| == 0 {
        assert t == s;
      }
    }
  }

  /** The same for main.c as written, where the one way to lose the close on the trip tick is
      an opening motor reaching its open limit on that tick (`TripLostAtOpenLimit`). */
  lemma TripTickClosesAsWritten(s: State, i: Inputs)
    requires s.Valid() && TripsNext(s) && NoButtons(i) && NoButtonMemory(s)
    requires !(s.current == Open && i.limitOpen)
    ensures var r := TickAsWritten(s, i);
      && r.heartbeatTriggered
      && ((r.requested == Close && r.moveCounter == MoveSteps - 1 && r.current != Open)
          || (s.current == Close && i.limitClosed && r.current == Stopped))
  {
  }

  /** The same as `TripKeepsClosing` for main.c as written, outside the collision of the
      first tick with the open limit. */
  lemma {:induction false} TripKeepsClosingAsWritten(s: State, ins: seq<Inputs>)
    requires s.Valid() && s.heartbeatTriggered && s.requested == Close && NoButtonMemory(s)
    requires |ins| < s.moveCounter
    requires forall k :: 0 <= k < |ins| ==> NoButtons(ins[k]) && !ins[k].limitClosed
    requires |ins| > 0 ==> !(s.current == Open && ins[0].limitOpen)
    ensures var r := TicksAsWritten(s, ins);
      && r.requested == Close && r.heartbeatTriggered && NoButtonMemory(r)
      && r.moveCounter == s.moveCounter - |ins|
      && (|ins| >= 2 || (|ins| == 1 && s.current != Open) ==> r.current == Close)
      && (|ins| == 1 && s.current == Open ==> r.current == Stopped)
    decreases |ins|
  {
    if |ins| > 0 {
      var before := ins[..|ins| - 1];
      TripKeepsClosingAsWritten(s, before);
      var t := TicksAsWritten(s, before);
      TickHeartbeat(t, ins[|ins| - 1], false);
      if |before| == 0 {
        assert t == s;
      }
    }
  }

  /** A button released on the trip tick cancels the forced close, in either version of the
      interrupt: the release requests a stop after the trip has requested the close, and the
      sticky trip never asks again. A release is an operator's stop, so this is the program's
      choice, not a defect; it is why the forced-close lemmas assume no button in use. */
  lemma ReleaseOnTripTickCancelsClose(s: State, i: Inputs, guardReversal: bool)
    requires s.Valid() && TripsNext(s) && NoButtons(i)
    requires s.flags.buttonOpen || s.flags.buttonClose
    ensures var r := Step(s, i, guardReversal);
      r.heartbeatTriggered && r.requested == Stopped && r.current == Stopped && !r.DriveEnabled()
  {
  }

  // ---------------------------------------------------------------------------
  // The defect of the interrupt as written

  /** A shutter opening under a heartbeat with one second left, one tick before the trip. */
  const OpeningBeforeTrip: State :=
    State(Open, Open, Flags(false, false, true, false, false), 100, StatusPeriod - 1, false, 1, false)

  /** The open limit becomes active, nobody touches a button. */
  const ReachesOpenLimit: Inputs := Inputs(true, false, false, false)

  /** As written, the trip and the open limit on the same tick leave the shutter tripped
      but stopped, open, with no request and no run time: the forced close is lost. */
  lemma TripLostAtOpenLimit()
    ensures OpeningBeforeTrip.Valid() && TripsNext(OpeningBeforeTrip)
    ensures var r := TickAsWritten(OpeningBeforeTrip, ReachesOpenLimit);
      && r.heartbeatTriggered
      && r.requested == Stopped && r.current == Stopped && r.moveCounter == 0
      && r.flags.limitOpen && !r.DriveEnabled()
    ensures var r := Tick(OpeningBeforeTrip, ReachesOpenLimit);
      r.heartbeatTriggered && r.requested == Close && r.moveCounter == MoveSteps - 1
  {
  }

  /** A tripped controller that is stopped with no request never moves again as written
      unless a button is pressed: the trip is sticky, so it never asks for a close again. */
  lemma {:induction false} StrandedStaysStopped(s: State, ins: seq<Inputs>)
    requires s.Valid() && s.heartbeatTriggered && s.requested == Stopped && s.current == Stopped
    requires s.moveCounter == 0 && NoButtonMemory(s)
    requires forall k :: 0 <= k < |ins| ==> NoButtons(ins[k])
    ensures var r := TicksAsWritten(s, ins);
      r.heartbeatTriggered && r.requested == Stopped && r.current == Stopped && r.moveCounter == 0
      && NoButtonMemory(r) && !r.DriveEnabled()
    decreases |ins|
  {
    if |ins| > 0 {
      StrandedStaysStopped(s, ins[..|ins| - 1]);
    }
  }

  // ---------------------------------------------------------------------------
  // A command byte racing the trip

  /** A host open, close or stop byte handled as main.c writes it: the trip test at main.c:85,
      96 or 107 reads the state before a timer interrupt `i`, and the assignment that follows it
      lands after that interrupt. Unless the interrupt trips the heartbeat, this is the same as
      the interrupt followed by the atomic `HandleByte`. */
  function RacedCommand(s: State, b: byte, i: Inputs): (r: State)
    requires s.Valid() && (b == 0xF1 || b == 0xF2 || b == 0xFF)
    ensures r.Valid()
    ensures r.heartbeatTriggered == TickAsWritten(s, i).heartbeatTriggered
    ensures !TripsNext(s) ==> r == HandleByte(TickAsWritten(s, i), b)
  {
    TickHeartbeat(s, i, false);
    var t := TickAsWritten(s, i);
    if s.heartbeatTriggered then t
    else if b == 0xF1 then t.(requested := Open, moveCounter := MoveSteps)
    else if b == 0xF2 then t.(requested := Close, moveCounter := MoveSteps)
    else t.(requested := Stopped)
  }

  /** A stopped shutter under a heartbeat with one second left, one tick before the trip. */
  const StoppedBeforeTrip: State :=
    State(Stopped, Stopped, Flags(false, false, false, false, false), 0, StatusPeriod - 1, false, 1, false)

  /** No limit reached, no button pressed. */
  const Idle: Inputs := Inputs(false, false, false, false)

  /** As written, an open byte whose trip test passes just before the trip replaces the forced
      close with a full-length open: two ticks later the tripped shutter is opening. Handled
      atomically, in either order with the tick, the close is kept. */
  lemma OpenByteOverridesTrip()
    ensures StoppedBeforeTrip.Valid() && TripsNext(StoppedBeforeTrip)
    ensures var r := RacedCommand(StoppedBeforeTrip, 0xF1, Idle);
      && r.heartbeatTriggered && r.requested == Open && r.moveCounter == MoveSteps
      && TickAsWritten(TickAsWritten(r, Idle), Idle).current == Open
    ensures HandleByte(TickAsWritten(StoppedBeforeTrip, Idle), 0xF1).requested == Close
    ensures TickAsWritten(HandleByte(StoppedBeforeTrip, 0xF1), Idle).requested == Close
  {
  }

  /** Handled atomically, a host open, close or stop byte cannot cancel the forced close, in
      whichever order it falls with the trip tick: after the trip it is ignored, and before it
      the trip's close request overrides it. */
  lemma AtomicCommandKeepsTrip(s: State, b: byte, i: Inputs)
    requires s.Valid() && TripsNext(s) && NoButtons(i) && NoButtonMemory(s)
    requires b == 0xF1 || b == 0xF2 || b == 0xFF
    ensures HandleByte(Tick(s, i), b) == Tick(s, i)
    ensures var r := Tick(HandleByte(s, b), i);
      && r.heartbeatTriggered
      && ((r.requested == Close && r.moveCounter == MoveSteps - 1 && r.current != Open)
          || (s.current == Close && i.limitClosed && r.current == Stopped))
  {
    TripTickCloses(s, i);
    TripTickCloses(HandleByte(s, b), i);
  }

  /** The same for main.c as written, with only the race repaired: outside the open-limit
      collision of the other defect, an atomic open, close or stop byte is ignored after the
      trip tick and cannot stop the trip tick from requesting the close. */
  lemma AtomicCommandKeepsTripAsWritten(s: State, b: byte, i: Inputs)
    requires s.Valid() && TripsNext(s) && NoButtons(i) && NoButtonMemory(s)
    requires b == 0xF1 || b == 0xF2 || b == 0xFF
    requires !(s.current == Open && i.limitOpen)
    ensures HandleByte(TickAsWritten(s, i), b) == TickAsWritten(s, i)
    ensures var r := TickAsWritten(HandleByte(s, b), i);
      && r.heartbeatTriggered
      && ((r.requested == Close && r.moveCounter == MoveSteps - 1 && r.current != Open)
          || (s.current == Close && i.limitClosed && r.current == Stopped))
  {
    TripTickClosesAsWritten(s, i);
    TripTickClosesAsWritten(HandleByte(s, b), i);
  }
}
